=== FILE: README.md ===
# COOKING_AI core in Dafny

This project models the server-side core of COOKING_AI, a recipe assistant. A user lists the ingredients they have. The service:

- asks Gemini models to plan web searches;
- runs the searches;
- in "detailed" mode, has a model check the first pages against the ingredients;
- answers with recipe results, and answers with illustrative placeholder results instead of failing.

Four parts are modelled, each as a Dafny module of pure functions over immutable values:

- **`KeyPool`** (`src/lib/gemini.ts`): the Gemini client's API-key pool.
  - Loading `GOOGLE_API_KEY` and the numbered keys `GOOGLE_API_KEY_<i>`. Loading tolerates gaps up to index 10, then stops at the first unset index.
  - De-duplication that keeps first occurrences.
  - Round-robin and random selection.
  - The per-request Fisher–Yates shuffle.
  - The key loop of `generateContent`, which returns the first key's success or the last key's error.
- **`SearchRoute`** (`src/app/api/search/route.ts`): `POST /api/search`.
  - The 400 for missing ingredients.
  - The two-model plan cascade that the mode chooses.
  - Code-fence stripping and plan parsing.
  - Per-entry search results, flattened in plan order.
  - Detailed-mode verification of the first three results: keep, drop, or keep unanalysed.
  - The placeholder list, with its four reasons, and the one-item error list of the outer `catch`.
- **`RecommendRoute`** (`src/app/api/recommend/route.ts`): `POST /api/recommend`.
  - The 400 check.
  - The fixed three-item list when no key is configured.
  - The two-model cascade, and the parse-or-500 answer.
- **`IngredientStore`** (`src/store/useIngredientStore.ts`): the client store.
  - Trimmed, de-duplicated `addIngredient`.
  - Positional `removeIngredient`, and the two setters.
  - The invariant that the list holds distinct, non-empty, trimmed names.

Shared modules:

- `Fallback.FirstSuccess` is the "try in order until one works" loop. The key loop and every model cascade are instances of it.
- `Text` holds JavaScript's `trim`, the `\s+` collapse and the code-fence stripping. Its white-space set is ECMAScript's white space and line terminators.
- `Decimal` renders the numbered key names.
- `Requests` holds the ingredient check both routes start with: an absent or empty list is a 400 "Ingredients are required".
- `Environment` models `process.env` as a map. A variable counts as set when it is present and non-empty, as JavaScript truthiness has it.

Everything outside the process is a function parameter, called an oracle here:

- the model call is `gen: (model, prompt) -> Reply`, or, per key, `KeyCall`;
- the web search is `search: query -> SearchOutcome`;
- the page fetch with text extraction is `page: link -> Option<text>`;
- `JSON.parse` is `parse`;
- `Math.random` becomes explicit draws.

A throwing call is an `Err` or `None` value.

## Model

| member | source | states |
|---|---|---|
| KeyPool.KeyNameInjective | src/lib/gemini.ts:33 | distinct indices give distinct `GOOGLE_API_KEY_<i>` names, so the loop never reads one variable twice |
| Decimal.DecimalInjective | src/lib/gemini.ts:33 | the decimal rendering of the index in the key name is injective (via the round trip `DecimalRoundTrip`) |
| Decimal.DecimalRoundTrip | src/lib/gemini.ts:33 | reading back the decimal rendering of `i` gives `i` |
| Decimal.NatToDecimal | src/lib/gemini.ts:33 | `${i}` renders a non-empty string of decimal digits without a leading zero |
| KeyPool.ScanNumberedMembers | src/lib/gemini.ts:31-43 | a value is collected by the numbered-key loop iff some index at or above the start that the loop reaches (no unset index above 10 before it) holds it |
| KeyPool.LowIndicesAlwaysLoaded | src/lib/gemini.ts:31-43 | a set key with index 1 to 10 is always loaded, whatever gaps precede it |
| KeyPool.LoadingStopsAtFirstGap | src/lib/gemini.ts:25-46 | a key set beyond an unset index above 10 is not loaded unless the primary key or another numbered key holds the same value |
| KeyPool.Dedupe | src/lib/gemini.ts:46 | `[...new Set(keys)]`: no duplicates, the same members, the first element kept |
| KeyPool.DedupeKeepsFirstOccurrenceOrder | src/lib/gemini.ts:46 | the de-duplicated list is ordered by each value's first occurrence |
| KeyPool.DedupeOfDistinct | src/lib/gemini.ts:46 | de-duplicating a list without repeats changes nothing |
| KeyPool.LoadApiKeys | src/lib/gemini.ts:24-49 | the loaded keys are distinct, start with `GOOGLE_API_KEY` when it is set, and are exactly the configured values the loader reaches |
| KeyPool.NewPool | src/lib/gemini.ts:16-22 | the constructed client holds the loaded keys in load order, distinct, with the round-robin position at 0, so the first `getNextKey` returns the primary key when it is set |
| KeyPool.NextKey | src/lib/gemini.ts:51-58 | null iff no keys; otherwise the key at the current position, which advances by one and wraps to 0 |
| KeyPool.NextKeysRun | src/lib/gemini.ts:51-58 | successive calls from position `i` return the keys from `i` onwards in order |
| KeyPool.NextKeysSplit | src/lib/gemini.ts:51-58 | `a + b` calls are `a` calls followed by `b` calls from the state they leave |
| KeyPool.RoundRobinCycle | src/lib/gemini.ts:51-58 | as many calls as keys return every key once, rotated to start at the current position, and restore the state |
| KeyPool.RandomKey | src/lib/gemini.ts:60-64 | null iff no keys; otherwise the key at the drawn index |
| KeyPool.RandomKeyReachesEveryKey | src/lib/gemini.ts:60-64 | every loaded key is the random pick for some draw |
| KeyPool.Swap | src/lib/gemini.ts:82 | the destructuring swap exchanges two positions and keeps the multiset |
| KeyPool.ShuffleDown | src/lib/gemini.ts:80-83 | the shuffle loop from position `i` down to 1 permutes the keys and keeps them distinct |
| KeyPool.Shuffle | src/lib/gemini.ts:73-83 | the shuffled copy is a permutation (same multiset) of the keys, distinct when they are |
| KeyPool.IdentityDrawsKeepOrder | src/lib/gemini.ts:80-83 | draws that pick the current position every time leave the order unchanged |
| KeyPool.KeyAttempts | src/lib/gemini.ts:85-102 | the keys tried are a prefix of the shuffled order; on success the last key tried is the first one in shuffled order that works, and its reply is the result |
| KeyPool.GenerateContent | src/lib/gemini.ts:66-106 | no keys is an error with "No Google API Keys found"; otherwise success iff some key succeeds, with the result of the first working key in shuffled order (every earlier key failed), and on failure the error of the last key in shuffled order |
| KeyPool.KeyAttemptsTryEachKeyOnce | src/lib/gemini.ts:87-105 | each key is tried at most once per call, and a failed call has tried all of them |
| KeyPool.SingleWorkingKeySuffices | src/lib/gemini.ts:87-97 | one working key among failing ones yields its result, whatever the shuffle |
| Fallback.FirstSuccess | src/app/api/search/route.ts:59-81 | options are tried in order: success iff some option succeeds, the winner is the last tried and every earlier one failed; failure tried all and reports the last error |
| Fallback.TwoOptions | src/app/api/search/route.ts:51-81 | the two-model cascade: the second model is asked only when the first fails |
| Text.Trim | src/store/useIngredientStore.ts:19 | `trim()`: a trimmed slice of the input with only white space removed at either end; the identity on trimmed input |
| Text.TrimIdempotent | src/store/useIngredientStore.ts:19 | trimming twice is trimming once |
| Text.TrimKeepsVisible | src/app/api/search/route.ts:153 | trimming removes no character other than white space |
| Text.CollapseWhitespace | src/app/api/search/route.ts:153 | `replace(/\s+/g, ' ')`: only single spaces remain as white space, never two in a row, the other characters are kept in order, and the result starts with white space iff the input does |
| Text.CollapseKeepsEnd | src/app/api/search/route.ts:153 | the collapsed text ends with white space iff the input does |
| Text.CollapseConcat | src/app/api/search/route.ts:153 | text ending in a visible character and whatever follows it collapse separately: no run spans the boundary |
| Text.CollapseAroundRun | src/app/api/search/route.ts:153 | a non-empty white-space run between visible characters, or at either end, becomes exactly one space and the text on each side collapses on its own |
| Text.RemoveAll | src/app/api/search/route.ts:92 | a global literal `replace` with the empty string never lengthens the text |
| Text.RemoveAllDropsOccurrence | src/app/api/search/route.ts:92 | an occurrence of a backtick-led pattern after backtick-free text is deleted and the text before it is kept |
| Text.RemoveFenceKeepsText | src/app/api/search/route.ts:92 | removing every "```" deletes backticks only: all other characters survive, in order |
| Text.RemoveAllAbsent | src/app/api/search/route.ts:92 | text in which the pattern does not occur is returned unchanged |
| Text.RemoveAllPassesPlainText | src/app/api/search/route.ts:92 | a backtick-free prefix passes through the fence removal untouched |
| Text.FenceFreeHasNoJsonFence | src/app/api/search/route.ts:92 | text with no "```" contains no "```json" either, so the first removal finds nothing in cleaned text |
| Text.RemoveAllFenceLeavesNone | src/app/api/search/route.ts:92 | after removing every "```", none is left, including ones that removals bring together |
| Text.StripFences | src/app/api/search/route.ts:92 | the cleaned model text contains no "```" and is trimmed |
| Text.StripFencesIdempotent | src/app/api/search/route.ts:184 | cleaning already-cleaned text changes nothing |
| Text.StripFencesRemovesWrapper | src/app/api/recommend/route.ts:71 | text without backticks wrapped in "```json" … "```" is cleaned to the trimmed text itself |
| Text.RemoveJsonFenceBeforeFence | src/app/api/recommend/route.ts:71 | a trailing "```" never completes a "```json": removing "```json" from text followed by "```" removes the ones in the text and keeps the "```" |
| Text.RemoveFenceAbsorbsFence | src/app/api/recommend/route.ts:71 | a trailing "```" is itself removed, whatever backticks precede it: removing "```" from text followed by "```" gives what removing it from the text gives |
| Text.StripFencesUnwraps | src/app/api/recommend/route.ts:71 | any text wrapped in "```json" … "```" is cleaned exactly as the text alone is, backticks inside it or not |
| SearchRoute.MockItems | src/app/api/search/route.ts:24-44 | the placeholder list has two unanalysed results without a query; the first snippet ends with the reason in parentheses; the first title names the dish, or 김치찌개 when it is missing or empty; the second names the first ingredient, or 재료 |
| SearchRoute.PlanCascadeOrder | src/app/api/search/route.ts:50-86 | "gemini-2.5-pro" (detailed) or "gemini-2.5-flash" (otherwise) is asked first, "gemini-2.0-flash-exp" only if it fails; the stage fails only when both fail |
| SearchRoute.EntryResults | src/app/api/search/route.ts:106-127 | a failed search or one without items gives no results; otherwise one result per item, in order, carrying the item's title, link, snippet, source and thumbnail and the entry's query and inferred ingredients |
| SearchRoute.Thumbnail | src/app/api/search/route.ts:118 | the thumbnail is the item's `cse_thumbnail` source when present and non-empty, otherwise its `cse_image` source; there is none exactly when neither applies |
| SearchRoute.FlattenConcat | src/app/api/search/route.ts:129-130 | `Promise.all` then `flat()` keeps plan order: a concatenated plan gives concatenated results |
| SearchRoute.FailedEntryContributesNothing | src/app/api/search/route.ts:112-126 | an entry whose search throws or has no items adds nothing and leaves the rest unchanged |
| SearchRoute.FlattenFailedEntry | src/app/api/search/route.ts:112-126 | a single entry whose search throws or has no items flattens to nothing |
| SearchRoute.FlattenProvenance | src/app/api/search/route.ts:114-122 | every flattened result is unanalysed and carries the query and inferred ingredients of some plan entry |
| SearchRoute.NormalizePageText | src/app/api/search/route.ts:153 | the page text sent for analysis is the first min(3000, n) characters of the fully normalised text of length n, with single spaces only and no leading white space, and keeps every visible character when that fits |
| SearchRoute.AnalysisCascade | src/app/api/search/route.ts:136-185 | no fetched page means no verdict; the model that produced the plan is asked first and "gemini-2.0-flash-exp" only if it throws; both throwing, or an answer without text, means no verdict; otherwise the verdict is the parse of that model's cleaned text |
| SearchRoute.AnalyzeOne | src/app/api/search/route.ts:136-198 | a valid verdict replaces the missing ingredients and marks the result analysed; an invalid one drops it; any failure, including an unreachable page, keeps it flagged unanalysed with the inferred ingredients |
| SearchRoute.AnalyzeSlots | src/app/api/search/route.ts:136-203 | no more results than slots, all of them analysed or flagged |
| SearchRoute.SurvivorsCons | src/app/api/search/route.ts:201-203 | a present first outcome in front of the survivors of the other slots gives the survivors of all slots; an absent one adds nothing |
| SearchRoute.AnalyzeSlotsSurvivors | src/app/api/search/route.ts:136-203 | the analysed list is exactly the slots whose analysis does not drop them, in slot order, each replaced by its analysed or flagged form; every such slot appears |
| SearchRoute.SelectionExtend | src/app/api/search/route.ts:201-203 | a kept first slot followed by an ordered selection of the rest is an ordered selection of all slots |
| SearchRoute.AnalyzeSlotsKeepOrder | src/app/api/search/route.ts:201-203 | the results that survive analysis keep their relative order |
| SearchRoute.Verify | src/app/api/search/route.ts:133-204 | detailed mode returns at most 3 results: exactly the results among the first min(3, n) whose analysis does not drop them, in order, each replaced by its analysed or flagged form |
| SearchRoute.UnreachablePagesKeepSlots | src/app/api/search/route.ts:194-198 | when no page can be fetched, every slot is kept, flagged unanalysed |
| SearchRoute.VerifyWithUnreachablePages | src/app/api/search/route.ts:133-204 | with no fetchable page detailed mode returns the first min(3, n) results, flagged, and drops the rest |
| SearchRoute.HandleSearch | src/app/api/search/route.ts:10-226 | 400 "Ingredients are required" iff the body's ingredients are missing or empty; every other answer is a non-empty result list |
| SearchRoute.PlanAndSearch | src/app/api/search/route.ts:50-210 | after the input check every path answers with a non-empty result list |
| SearchRoute.SearchStage | src/app/api/search/route.ts:106-210 | the search stage always answers with a non-empty result list |
| SearchRoute.BadRequestCallsNothing | src/app/api/search/route.ts:18-21 | the 400 answer does not depend on any model, search, page or parser |
| SearchRoute.PlaceholderPaths | src/app/api/search/route.ts:83-104 | all plan models failing, an unparsable plan and missing search credentials each give the placeholder list with that reason |
| SearchRoute.ExceptionPaths | src/app/api/search/route.ts:212-225 | an unreadable body, an unreadable completion and a plan that is not a list give the one-item error list |
| SearchRoute.ReachesSearchStage | src/app/api/search/route.ts:84-106 | a request with ingredients, a plan model that answered, a plan that is a list and configured search credentials reaches the search stage with the model that produced the plan |
| SearchRoute.FastModeReturnsFlattened | src/app/api/search/route.ts:106-210 | in fast mode, or with no search results, the search stage returns the flattened results, all unanalysed and without an analysis error, or the "No search results found" placeholders when there are none |
| SearchRoute.DetailedModeReturnsVerified | src/app/api/search/route.ts:133-210 | in detailed mode with search results, the search stage returns the verified leading results (at most 3, each analysed or flagged), or the unanalysed placeholders when every slot was dropped |
| RecommendRoute.ClassifyIgnoresFences | src/app/api/recommend/route.ts:71-81 | the response to a model answer is the response to its cleaned text: fences and surrounding white space never change the status or the parsed value |
| RecommendRoute.HandleRecommend | src/app/api/recommend/route.ts:7-87 | status is 200, 400 or 500; 400 iff ingredients missing or empty; the fixed list iff ingredients are given and no key is set; an error body iff the status is not 200; an unreadable body is a 500 "Internal Server Error" |
| RecommendRoute.PlaceholderWithoutKey | src/app/api/recommend/route.ts:15-24 | without a key the answer is 김치찌개, 된장찌개, 계란말이 in that order, each with a difficulty of 쉬움, 보통 or 어려움 |
| RecommendRoute.ModelOrder | src/app/api/recommend/route.ts:26-68 | "gemini-3-flash-preview" decides when it answers, "gemini-3-pro-preview" only when it throws; both throwing, or unreadable text, is a 500 "Internal Server Error" |
| RecommendRoute.FencedAnswerParsesAsBare | src/app/api/recommend/route.ts:68-81 | any answer wrapped in "```json" … "```" gets exactly the response the bare text would get |
| IngredientStore.Initial | src/store/useIngredientStore.ts:13-16 | the store starts empty, with no target dish, in fast mode, and valid |
| IngredientStore.AddIngredient | src/store/useIngredientStore.ts:17-23 | an empty or already listed trimmed name leaves the state unchanged; otherwise the trimmed name is appended; the other fields never change |
| IngredientStore.WithoutIndex | src/store/useIngredientStore.ts:26 | the index filter removes one element when the index is in range and nothing otherwise |
| IngredientStore.WithoutIndexIsSplice | src/store/useIngredientStore.ts:26 | in range, the filter result is the elements before and after the index |
| IngredientStore.RemoveIngredient | src/store/useIngredientStore.ts:24-27 | only the list changes; an out-of-range index changes nothing |
| IngredientStore.SetTargetDish | src/store/useIngredientStore.ts:28 | only the target dish changes, to the given value |
| IngredientStore.SetSearchMode | src/store/useIngredientStore.ts:29 | only the search mode changes, to the given value |
| IngredientStore.AddKeepsValid | src/store/useIngredientStore.ts:17-23 | adding keeps the names distinct, non-empty and trimmed |
| IngredientStore.RemoveKeepsValid | src/store/useIngredientStore.ts:24-27 | removing keeps the names distinct, non-empty and trimmed |
| IngredientStore.SettersKeepValid | src/store/useIngredientStore.ts:28-29 | the setters keep the store valid |
| IngredientStore.AddIdempotent | src/store/useIngredientStore.ts:19-21 | adding a name twice is adding it once, and surrounding white space makes no difference |
| IngredientStore.RemoveUndoesAdd | src/store/useIngredientStore.ts:17-27 | removing the last position after a successful add restores the state |

## Left out

- Prompt wording and `console` logging: they do not affect any answer, with one exception. The log line for a valid verdict (`src/app/api/search/route.ts:188`) calls `.join` on `actualMissingIngredients`, which throws when that value is not a list; the slot is then kept flagged unanalysed, as `SearchRoute.AnalyzeOne` states.
- The page request's 5-second timeout and its `User-Agent` header (`src/app/api/search/route.ts:140-145`). They are part of the `page` oracle: a fetch that times out or is refused is `None`, and the slot is kept flagged unanalysed.
- HTML parsing, which needs cheerio. The removal of `script`/`style` and `$('body').text()` are part of the `page` oracle.
- HTTP. Fetching, `fetch`/`axios`, and `JSON.parse` of service answers are oracles.
- The model SDK. It is the `gen`/`KeyCall` oracle.
- `Math.random`. It is replaced by explicit draws, `ValidDraws` for the shuffle and `draw < |keys|` for `getRandomKey`.
- Concurrency. `Promise.all` is modelled as the in-order map it produces; the concurrent searches and analyses are assumed independent.
- The link between `KeyPool.GenerateContent` and the routes. The routes take `gen` as a parameter, not the key pool.
- Answers that vary between calls. The `search`, `gen` and `page` oracles are pure functions: two plan entries with the same query get the same search answer, and two leading results with the same link get the same page and verdict. Such duplicates are not merged: `flat()` keeps every result (`src/app/api/search/route.ts:129-130`).
- `GEMINI_MODELS` (`src/lib/gemini.ts:8-14`): it is imported by the search route but never read.
- The UI components, pages, scripts and configuration files: they are outside the core.
- Non-array `ingredients` values (a string, an object with `length`) and non-string `dish`/`mode` values. Ingredients are an optional list of strings; `mode` is compared with "detailed" only.
- SearchRoute.NormalizePageText: the 3000-character cut counts code points, whereas `substring` counts UTF-16 code units, so text with characters outside the Basic Multilingual Plane is cut later than in JavaScript.
- KeyPool.GenerateContent: the fallback `new Error('All API keys failed.')` is not modelled. It applies only when the last error is falsy, and the SDK always throws an `Error`.
- SearchRoute.AnalyzeOne: the `valid` and `actualMissingIngredients` fields are reduced to a boolean and an optional list by the `parseVerdict` oracle. A `valid` value whose list is not an array throws while logging, and is modelled as a failure.
- SearchRoute.PlanEntry: the `parsePlan` oracle yields each plan element as a string query and a list of inferred ingredients (`src/app/api/search/route.ts:106-124`). A `null` element throws inside the per-entry `try` and contributes no results without any search, which the per-query `search` oracle cannot express. An element without `query` searches for the text "undefined" and has no `queryUsed`. A non-list `inferredMissingIngredients` is copied into the results as it is. None of these is modelled.
- SearchRoute.SearchResult: `analysisError` is a boolean, where false stands for the field being absent.

Three behaviours of the code are easy to miss:

- `/api/recommend` answers 500 when every model fails or the answer does not parse. Its fixed placeholder list is given only when `GOOGLE_API_KEY` is unset (`src/app/api/recommend/route.ts:15-24,65-85`).
- Detailed mode keeps only the first three results and discards the rest of the flattened list (`src/app/api/search/route.ts:134,203`).
- On `/api/search` an exception caught by the outer handler gives a one-item error list ("오류가 발생했지만 결과 예시를 보여드립니다"), which is a different answer from the two placeholder results. This covers an unreadable body, an unreadable completion and a plan that is not a list (`src/app/api/search/route.ts:212-225`).

=== FILE: decimal.dfy ===
/** Decimal rendering of natural numbers, as JavaScript's template literal
    `${i}` produces it for the numbered key names. */
module Decimal {

  predicate IsDigit(c: char) {
    '0' <= c <= '9'
  }

  function Digit(d: nat): (c: char)
    requires d < 10
    ensures IsDigit(c)
  {
    (('0' as int) + d) as char
  }

  function DigitValue(c: char): nat {
    if IsDigit(c) then (c as int) - ('0' as int) else 0
  }

  /** The decimal digits of `n`, most significant first, without leading zeros. */
  function NatToDecimal(n: nat): (r: string)
    ensures |r| > 0
    ensures forall i :: 0 <= i < |r| ==> IsDigit(r[i])
    ensures |r| > 1 ==> r[0] != '0'
  {
    if n < 10 then [Digit(n)] else NatToDecimal(n / 10) + [Digit(n % 10)]
  }

  /** Reads a string of digits back as a number. */
  function ParseDecimal(s: string): nat {
    if |s| == 0 then 0 else 10 * ParseDecimal(s[..|s| - 1]) + DigitValue(s[|s| - 1])
  }

  /** Reading the rendering of `n` gives back `n`. */
  lemma {:induction false} DecimalRoundTrip(n: nat)
    ensures ParseDecimal(NatToDecimal(n)) == n
  {
    var r := NatToDecimal(n);
    if n >= 10 {
      DecimalRoundTrip(n / 10);
      assert r[..|r| - 1] == NatToDecimal(n / 10);
    }
  }

  /** Different numbers have different renderings. */
  lemma DecimalInjective(m: nat, n: nat)
    requires NatToDecimal(m) == NatToDecimal(n)
    ensures m == n
  {
    DecimalRoundTrip(m);
    DecimalRoundTrip(n);
  }
}

=== FILE: environment.dfy ===
/** The process environment the core reads its configuration from. */
module Environment {

  /** Variable name to value; a name that is absent reads as `undefined`. */
  type Env = map<string, string>

  /** JavaScript truthiness of `process.env[name]`: present and non-empty. */
  predicate IsSet(env: Env, name: string) {
    name in env && env[name] != ""
  }
}

=== FILE: fallback.dfy ===
/** An ordered list of options tried one after another until one works. The
    key loop of the Gemini client and every model cascade of the routes are
    instances of it. */
module Fallback {
  import opened Outcomes

  /** The option that succeeded and what it produced. */
  datatype Win<K, T> = Win(choice: K, value: T)

  /** The options attempted, in order, and the overall outcome: the first
      success, or the last error (`None` when there was nothing to try). */
  datatype Run<K, T, E> = Run(tried: seq<K>, outcome: Result<Win<K, T>, Option<E>>)

  /** Tries `options` in order and stops at the first that succeeds. */
  function FirstSuccess<K, T, E>(options: seq<K>, attempt: K -> Result<T, E>): (r: Run<K, T, E>)
    ensures |r.tried| <= |options| && r.tried == options[..|r.tried|]
    ensures forall i :: 0 <= i < |r.tried| - 1 ==> attempt(r.tried[i]).Err?
    ensures r.outcome.Ok? <==> exists i :: 0 <= i < |options| && attempt(options[i]).Ok?
    ensures r.outcome.Ok? ==>
              && |r.tried| > 0
              && r.outcome.value.choice == r.tried[|r.tried| - 1]
              && attempt(r.outcome.value.choice) == Ok(r.outcome.value.value)
    ensures r.outcome.Err? ==> r.tried == options
    ensures r.outcome.Err? ==>
              r.outcome.error == if |options| == 0 then None
                                 else Some(attempt(options[|options| - 1]).error)
  {
    if |options| == 0 then Run([], Err(None))
    else
      match attempt(options[0])
      case Ok(v) => Run([options[0]], Ok(Win(options[0], v)))
      case Err(e) =>
        var rest := FirstSuccess(options[1..], attempt);
        assert options == [options[0]] + options[1..];
        Run([options[0]] + rest.tried,
            if rest.outcome.Err? && rest.outcome.error.None? then Err(Some(e)) else rest.outcome)
  }

  /** The two-option cascade every route uses, spelled out: the second
      option is consulted only when the first fails, and the error reported
      is the second one's. */
  lemma TwoOptions<K, T, E>(a: K, b: K, attempt: K -> Result<T, E>)
    ensures var r := FirstSuccess([a, b], attempt);
            && (attempt(a).Ok? ==> r == Run([a], Ok(Win(a, attempt(a).value))))
            && (attempt(a).Err? && attempt(b).Ok? ==> r == Run([a, b], Ok(Win(b, attempt(b).value))))
            && (attempt(a).Err? && attempt(b).Err? ==> r == Run([a, b], Err(Some(attempt(b).error))))
  {
    assert [a, b][1..] == [b];
    assert [b][1..] == [];
  }
}

=== FILE: genai.dfy ===
/** What the core exchanges with the generative-text service. The service
    itself is an oracle parameter wherever it is called. */
module GenAi {
  import opened Outcomes

  /** A prompt, represented by the request data it is built from; the
      wording of the prompt text is not modelled. */
  datatype Prompt =
    | PlanPrompt(ingredients: seq<string>, dish: Option<string>)
    | AnalysisPrompt(ingredients: seq<string>, pageText: string)
    | RecommendPrompt(ingredients: seq<string>)

  /** A completed generation. Reading its text (`response.text()`) may
      throw, which is `text == None`. */
  datatype Completion = Completion(text: Option<string>)

  /** A generation either completes or throws an error with a message. */
  type Reply = Result<Completion, string>

  /** One generation request: model name and prompt to its outcome. */
  type Generator = (string, Prompt) -> Reply
}

=== FILE: ingredient_store.dfy ===
/** The client-side ingredient store: a list of trimmed, distinct, non-empty
    ingredient names, the dish the user is aiming for, and the search mode.
    Each action is a pure transition on the whole state. */
module IngredientStore {
  import opened Sequences
  import opened Text

  datatype SearchMode = Fast | Detailed

  datatype StoreState = StoreState(ingredients: seq<string>, targetDish: string, searchMode: SearchMode)

  /** What `addIngredient` keeps true of the list. */
  predicate Valid(s: StoreState) {
    && NoDuplicates(s.ingredients)
    && forall k :: 0 <= k < |s.ingredients| ==> s.ingredients[k] != "" && IsTrimmed(s.ingredients[k])
  }

  /** The state the store is created with. */
  function Initial(): (s: StoreState)
    ensures Valid(s)
    ensures |s.ingredients| == 0 && s.targetDish == "" && s.searchMode == Fast
  {
    StoreState([], "", Fast)
  }

  /** `addIngredient`: appends the trimmed name unless it is empty or
      already listed, in which case the state is returned unchanged. */
  function AddIngredient(s: StoreState, ingredient: string): (r: StoreState)
    ensures r.targetDish == s.targetDish && r.searchMode == s.searchMode
    ensures Trim(ingredient) == "" || Trim(ingredient) in s.ingredients ==> r == s
    ensures Trim(ingredient) != "" && Trim(ingredient) !in s.ingredients ==>
              r.ingredients == s.ingredients + [Trim(ingredient)]
    ensures Trim(ingredient) != "" ==> Trim(ingredient) in r.ingredients
    ensures forall x :: x in r.ingredients <==> x in s.ingredients || (x == Trim(ingredient) && x != "")
  {
    var trimmed := Trim(ingredient);
    if trimmed == "" || trimmed in s.ingredients then s
    else s.(ingredients := s.ingredients + [trimmed])
  }

  /** `ingredients.filter((_, i) => i !== index)`: every element except the
      one at position `index`, in order. */
  function WithoutIndex(xs: seq<string>, index: int): (r: seq<string>)
    ensures 0 <= index < |xs| ==> |r| == |xs| - 1
    ensures !(0 <= index < |xs|) ==> r == xs
    ensures forall x :: x in r ==> x in xs
  {
    if |xs| == 0 then []
    else if index == 0 then WithoutIndex(xs[1..], index - 1)
    else [xs[0]] + WithoutIndex(xs[1..], index - 1)
  }

  /** `removeIngredient`: only the list changes. */
  function RemoveIngredient(s: StoreState, index: int): (r: StoreState)
    ensures r.targetDish == s.targetDish && r.searchMode == s.searchMode
    ensures !(0 <= index < |s.ingredients|) ==> r == s
    ensures 0 <= index < |s.ingredients| ==> |r.ingredients| == |s.ingredients| - 1
  {
    s.(ingredients := WithoutIndex(s.ingredients, index))
  }

  /** `setTargetDish`: the dish is stored verbatim, untrimmed. */
  function SetTargetDish(s: StoreState, dish: string): (r: StoreState)
    ensures r.targetDish == dish
    ensures r.ingredients == s.ingredients && r.searchMode == s.searchMode
  {
    s.(targetDish := dish)
  }

  function SetSearchMode(s: StoreState, mode: SearchMode): (r: StoreState)
    ensures r.searchMode == mode
    ensures r.ingredients == s.ingredients && r.targetDish == s.targetDish
  {
    s.(searchMode := mode)
  }

  /** The filter keeps the elements on either side of the removed position. */
  lemma {:induction false} WithoutIndexIsSplice(xs: seq<string>, index: int)
    requires 0 <= index < |xs|
    ensures WithoutIndex(xs, index) == xs[..index] + xs[index + 1..]
    decreases |xs|
  {
    if index == 0 {
      assert xs[1..] == xs[index + 1..];
      assert xs[..index] == [];
    } else {
      WithoutIndexIsSplice(xs[1..], index - 1);
      assert xs[1..][..index - 1] == xs[1..index];
      assert xs[1..][index..] == xs[index + 1..];
      assert [xs[0]] + xs[1..index] == xs[..index];
    }
  }

  /** Removing from a list without duplicates leaves one without duplicates. */
  lemma SpliceKeepsDistinct(xs: seq<string>, index: int)
    requires NoDuplicates(xs) && 0 <= index < |xs|
    ensures NoDuplicates(xs[..index] + xs[index + 1..])
  {
    var r := xs[..index] + xs[index + 1..];
    forall i, j | 0 <= i < j < |r|
      ensures r[i] != r[j]
    {
      var i' := if i < index then i else i + 1;
      var j' := if j < index then j else j + 1;
      assert r[i] == xs[i'] && r[j] == xs[j'];
    }
  }

  /** Every action keeps the store valid. */
  lemma AddKeepsValid(s: StoreState, ingredient: string)
    requires Valid(s)
    ensures Valid(AddIngredient(s, ingredient))
  {
    var t := Trim(ingredient);
    if t != "" && t !in s.ingredients {
      var r := s.ingredients + [t];
      forall i, j | 0 <= i < j < |r|
        ensures r[i] != r[j]
      {
        if j == |r| - 1 {
          assert r[i] in s.ingredients;
        }
      }
    }
  }

  lemma RemoveKeepsValid(s: StoreState, index: int)
    requires Valid(s)
    ensures Valid(RemoveIngredient(s, index))
  {
    if 0 <= index < |s.ingredients| {
      WithoutIndexIsSplice(s.ingredients, index);
      SpliceKeepsDistinct(s.ingredients, index);
      var r := s.ingredients[..index] + s.ingredients[index + 1..];
      forall k | 0 <= k < |r|
        ensures r[k] != "" && IsTrimmed(r[k])
      {
        assert r[k] in s.ingredients;
      }
    }
  }

  lemma SettersKeepValid(s: StoreState, dish: string, mode: SearchMode)
    requires Valid(s)
    ensures Valid(SetTargetDish(s, dish)) && Valid(SetSearchMode(s, mode))
  {
  }

  /** Adding the same name twice has the effect of adding it once, and so
      does adding it with extra surrounding whitespace. */
  lemma AddIdempotent(s: StoreState, ingredient: string)
    ensures AddIngredient(AddIngredient(s, ingredient), ingredient) == AddIngredient(s, ingredient)
    ensures AddIngredient(s, Trim(ingredient)) == AddIngredient(s, ingredient)
  {
    TrimIdempotent(ingredient);
  }

  /** Adding then removing the last position gives back the original list. */
  lemma RemoveUndoesAdd(s: StoreState, ingredient: string)
    requires Trim(ingredient) != "" && Trim(ingredient) !in s.ingredients
    ensures RemoveIngredient(AddIngredient(s, ingredient), |s.ingredients|) == s
  {
    var r := AddIngredient(s, ingredient);
    WithoutIndexIsSplice(r.ingredients, |s.ingredients|);
    assert r.ingredients[..|s.ingredients|] == s.ingredients;
  }
}

=== FILE: key_pool.dfy ===
/** The Gemini client's pool of API keys: loading the keys from the
    environment, round-robin and random selection, the per-call shuffle, and
    the loop that tries every key once until one succeeds. */
module KeyPool {
  import opened Outcomes
  import opened Sequences
  import opened Decimal
  import opened Environment
  import opened GenAi
  import opened Fallback

  const PrimaryKeyName: string := "GOOGLE_API_KEY"
  const NumberedKeyPrefix: string := "GOOGLE_API_KEY_"
  /** Numbered keys up to this index are read even when some are missing. */
  const GapTolerance: nat := 10
  const NoKeysMessage: string := "No Google API Keys found"

  function KeyName(i: nat): string {
    NumberedKeyPrefix + NatToDecimal(i)
  }

  lemma KeyNameInjective(i: nat, j: nat)
    requires KeyName(i) == KeyName(j)
    ensures i == j
  {
    assert NatToDecimal(i) == KeyName(i)[|NumberedKeyPrefix|..];
    assert NatToDecimal(j) == KeyName(j)[|NumberedKeyPrefix|..];
    DecimalInjective(i, j);
  }

  // ---------------------------------------------------------------------
  // Loading
  // ---------------------------------------------------------------------

  /** The environment names of numbered keys with index `i` or more. The
      environment is finite, so this set measures how far the loading loop
      can still go. */
  ghost function PendingNames(env: Env, i: nat): set<string> {
    set k | k in env.Keys && exists j: nat :: i <= j && k == KeyName(j)
  }

  lemma PendingShrinks(env: Env, i: nat)
    ensures |PendingNames(env, i + 1)| <= |PendingNames(env, i)|
    ensures KeyName(i) in env ==> |PendingNames(env, i + 1)| < |PendingNames(env, i)|
  {
    var now, next := PendingNames(env, i), PendingNames(env, i + 1);
    assert next <= now;
    assert now == next + (now - next);
    if KeyName(i) in env {
      assert KeyName(i) in now;
      forall j: nat | i + 1 <= j
        ensures KeyName(j) != KeyName(i)
      {
        if KeyName(j) == KeyName(i) {
          KeyNameInjective(i, j);
        }
      }
      assert KeyName(i) !in next;
    }
  }

  /** The values the numbered-key loop pushes from index `i` on: a set key
      is pushed; an unset one is skipped while `i <= GapTolerance` and ends
      the loop after that. */
  function ScanNumbered(env: Env, i: nat): (r: seq<string>)
    requires i >= 1
    decreases |PendingNames(env, i)|, if i <= GapTolerance then GapTolerance + 1 - i else 0
  {
    PendingShrinks(env, i);
    if IsSet(env, KeyName(i)) then [env[KeyName(i)]] + ScanNumbered(env, i + 1)
    else if i > GapTolerance then []
    else ScanNumbered(env, i + 1)
  }

  /** The loop reaches index `j`: no index above `GapTolerance` and below
      `j` is unset. */
  ghost predicate Reached(env: Env, j: nat) {
    forall k: nat :: GapTolerance < k < j ==> IsSet(env, KeyName(k))
  }

  /** `v` is the value of a numbered key at index `i` or above that the loop reaches. */
  ghost predicate LoadedFrom(env: Env, i: nat, v: string) {
    exists j: nat :: i <= j && Reached(env, j) && IsSet(env, KeyName(j)) && env[KeyName(j)] == v
  }

  /** `v` is a configured key value the loader takes: the primary key, or a
      numbered key the loop reaches. */
  ghost predicate IsConfigured(env: Env, v: string) {
    || (IsSet(env, PrimaryKeyName) && env[PrimaryKeyName] == v)
    || LoadedFrom(env, 1, v)
  }

  lemma {:induction false} ScanNumberedMembers(env: Env, i: nat)
    requires i >= 1 && Reached(env, i)
    ensures forall v :: v in ScanNumbered(env, i) <==> LoadedFrom(env, i, v)
    decreases |PendingNames(env, i)|, if i <= GapTolerance then GapTolerance + 1 - i else 0
  {
    PendingShrinks(env, i);
    var scan := ScanNumbered(env, i);
    if IsSet(env, KeyName(i)) {
      assert Reached(env, i + 1);
      ScanNumberedMembers(env, i + 1);
      var tail := ScanNumbered(env, i + 1);
      assert scan == [env[KeyName(i)]] + tail;
      forall v
        ensures v in scan <==> LoadedFrom(env, i, v)
      {
        if v == env[KeyName(i)] {
          assert i <= i && Reached(env, i) && IsSet(env, KeyName(i));
        }
        if v in tail {
          var j: nat :| i + 1 <= j && Reached(env, j) && IsSet(env, KeyName(j)) && env[KeyName(j)] == v;
          assert i <= j;
        }
        if LoadedFrom(env, i, v) {
          var j: nat :| i <= j && Reached(env, j) && IsSet(env, KeyName(j)) && env[KeyName(j)] == v;
          if j > i {
            assert LoadedFrom(env, i + 1, v);
          }
        }
      }
    } else if i > GapTolerance {
      forall v
        ensures !LoadedFrom(env, i, v)
      {
        forall j: nat | i <= j
          ensures !(Reached(env, j) && IsSet(env, KeyName(j)))
        {
          if j > i {
            assert GapTolerance < i < j && !IsSet(env, KeyName(i));
          }
        }
      }
    } else {
      assert Reached(env, i + 1);
      ScanNumberedMembers(env, i + 1);
      forall v
        ensures LoadedFrom(env, i, v) <==> LoadedFrom(env, i + 1, v)
      {
        if LoadedFrom(env, i, v) {
          var j: nat :| i <= j && Reached(env, j) && IsSet(env, KeyName(j)) && env[KeyName(j)] == v;
          assert j != i;
        }
      }
    }
  }

  /** `[...new Set(xs)]`: the distinct elements of `xs`, each kept at its
      first occurrence. */
  function Dedupe(xs: seq<string>): (r: seq<string>)
    ensures NoDuplicates(r)
    ensures forall v :: v in r <==> v in xs
    ensures |xs| > 0 ==> |r| > 0 && r[0] == xs[0]
  {
    if |xs| == 0 then []
    else
      var d := Dedupe(xs[..|xs| - 1]);
      assert xs == xs[..|xs| - 1] + [xs[|xs| - 1]];
      if xs[|xs| - 1] in d then d else d + [xs[|xs| - 1]]
  }

  /** The order of the de-duplicated list is the order of first occurrences. */
  lemma {:induction false} DedupeKeepsFirstOccurrenceOrder(xs: seq<string>)
    ensures forall i, j :: 0 <= i < j < |Dedupe(xs)| ==>
              FirstIndex(xs, Dedupe(xs)[i]) < FirstIndex(xs, Dedupe(xs)[j])
  {
    if |xs| > 0 {
      var n := |xs| - 1;
      var front := xs[..n];
      var d := Dedupe(front);
      DedupeKeepsFirstOccurrenceOrder(front);
      var r := Dedupe(xs);
      assert xs == front + [xs[n]];
      assert r == if xs[n] in d then d else d + [xs[n]];
      forall i, j | 0 <= i < j < |r|
        ensures FirstIndex(xs, r[i]) < FirstIndex(xs, r[j])
      {
        assert r[i] == d[i] && d[i] in front;
        FirstIndexInPrefix(xs, n, r[i]);
        if j < |d| {
          assert r[j] == d[j] && d[j] in front;
          FirstIndexInPrefix(xs, n, r[j]);
        } else {
          FirstIndexUnique(xs, xs[n], n);
        }
      }
    }
  }

  /** A value occurring in the first `n` elements first occurs where it
      first occurs in that prefix. */
  lemma FirstIndexInPrefix(xs: seq<string>, n: nat, v: string)
    requires n <= |xs| && v in xs[..n]
    ensures FirstIndex(xs, v) == FirstIndex(xs[..n], v)
  {
    FirstIndexUnique(xs, v, FirstIndex(xs[..n], v));
  }

  /** A list without duplicates is its own de-duplication. */
  lemma {:induction false} DedupeOfDistinct(xs: seq<string>)
    requires NoDuplicates(xs)
    ensures Dedupe(xs) == xs
  {
    if |xs| > 0 {
      var n := |xs| - 1;
      DedupeOfDistinct(xs[..n]);
      assert xs[n] !in xs[..n];
      assert xs == xs[..n] + [xs[n]];
    }
  }

  /** The keys pushed, in push order: the primary key if set, then the
      numbered keys. */
  function RawKeys(env: Env): seq<string> {
    (if IsSet(env, PrimaryKeyName) then [env[PrimaryKeyName]] else []) + ScanNumbered(env, 1)
  }

  /** `loadApiKeys`: the distinct configured values, primary key first. */
  function LoadApiKeys(env: Env): (keys: seq<string>)
    ensures NoDuplicates(keys)
    ensures IsSet(env, PrimaryKeyName) ==> |keys| > 0 && keys[0] == env[PrimaryKeyName]
    ensures forall v :: v in keys <==> IsConfigured(env, v)
  {
    ScanNumberedMembers(env, 1);
    Dedupe(RawKeys(env))
  }

  /** Every set key with index 1 to `GapTolerance` is loaded, gaps or not. */
  lemma LowIndicesAlwaysLoaded(env: Env, i: nat)
    requires 1 <= i <= GapTolerance && IsSet(env, KeyName(i))
    ensures env[KeyName(i)] in LoadApiKeys(env)
  {
    assert Reached(env, i);
    assert LoadedFrom(env, 1, env[KeyName(i)]);
  }

  /** Above `GapTolerance` loading stops at the first unset index: a key set
      beyond that gap, whose value neither the primary key nor any other
      numbered key holds, is not among the loaded keys. */
  lemma LoadingStopsAtFirstGap(env: Env, gap: nat, j: nat)
    requires GapTolerance < gap < j && !IsSet(env, KeyName(gap)) && IsSet(env, KeyName(j))
    requires !(IsSet(env, PrimaryKeyName) && env[PrimaryKeyName] == env[KeyName(j)])
    requires forall i: nat :: i != j && IsSet(env, KeyName(i)) ==> env[KeyName(i)] != env[KeyName(j)]
    ensures env[KeyName(j)] !in LoadApiKeys(env)
  {
  }

  // ---------------------------------------------------------------------
  // Selection
  // ---------------------------------------------------------------------

  /** The client's state: the loaded keys and the round-robin position. */
  datatype Pool = Pool(keys: seq<string>, index: nat)

  predicate IndexInRange(p: Pool) {
    p.index < |p.keys| || (|p.keys| == 0 && p.index == 0)
  }

  /** The constructor: the loaded keys with the position at the start. */
  function NewPool(env: Env): (p: Pool)
    ensures IndexInRange(p) && NoDuplicates(p.keys)
    ensures forall v :: v in p.keys <==> IsConfigured(env, v)
    ensures p.keys == LoadApiKeys(env) && p.index == 0
    ensures IsSet(env, PrimaryKeyName) ==> NextKey(p).0 == Some(env[PrimaryKeyName])
  {
    Pool(LoadApiKeys(env), 0)
  }

  /** `getNextKey`: the key at the current position, advancing it cyclically. */
  function NextKey(p: Pool): (r: (Option<string>, Pool))
    requires IndexInRange(p)
    ensures r.0.None? <==> |p.keys| == 0
    ensures r.0.None? ==> r.1 == p
    ensures r.1.keys == p.keys && IndexInRange(r.1)
    ensures r.0.Some? ==> r.0.value == p.keys[p.index]
    ensures r.0.Some? ==> r.1.index == if p.index + 1 < |p.keys| then p.index + 1 else 0
  {
    if |p.keys| == 0 then (None, p)
    else (Some(p.keys[p.index]), p.(index := (p.index + 1) % |p.keys|))
  }

  /** The keys `n` successive `NextKey` calls return, and the final state. */
  function NextKeys(p: Pool, n: nat): (r: (seq<string>, Pool))
    requires IndexInRange(p) && |p.keys| > 0
    ensures r.1.keys == p.keys && IndexInRange(r.1)
    decreases n
  {
    if n == 0 then ([], p)
    else
      var step := NextKey(p);
      var more := NextKeys(step.1, n - 1);
      ([step.0.value] + more.0, more.1)
  }

  lemma {:induction false} NextKeysSplit(p: Pool, a: nat, b: nat)
    requires IndexInRange(p) && |p.keys| > 0
    ensures NextKeys(p, a + b).0 == NextKeys(p, a).0 + NextKeys(NextKeys(p, a).1, b).0
    ensures NextKeys(p, a + b).1 == NextKeys(NextKeys(p, a).1, b).1
    decreases a
  {
    if a > 0 {
      var step := NextKey(p);
      NextKeysSplit(step.1, a - 1, b);
      assert a + b - 1 == (a - 1) + b;
      assert NextKeys(p, a + b).0 == [step.0.value] + NextKeys(step.1, (a - 1) + b).0;
      assert NextKeys(p, a).0 == [step.0.value] + NextKeys(step.1, a - 1).0;
    }
  }

  lemma {:induction false} NextKeysRun(p: Pool, m: nat)
    requires IndexInRange(p) && |p.keys| > 0 && p.index + m <= |p.keys|
    ensures NextKeys(p, m).0 == p.keys[p.index..p.index + m]
    ensures NextKeys(p, m).1.index == if p.index + m < |p.keys| then p.index + m else 0
    decreases m
  {
    if m > 0 {
      var step := NextKey(p);
      if p.index + 1 < |p.keys| {
        NextKeysRun(step.1, m - 1);
        assert p.keys[p.index..p.index + m] == [p.keys[p.index]] + p.keys[p.index + 1..p.index + m];
      } else {
        assert m == 1;
        assert NextKeys(step.1, 0).0 == [];
      }
    }
  }

  /** Round robin: one full cycle of calls returns every key exactly once,
      starting at the current position, and comes back to that position. */
  lemma {:induction false} RoundRobinCycle(p: Pool)
    requires IndexInRange(p) && |p.keys| > 0
    ensures NextKeys(p, |p.keys|).0 == p.keys[p.index..] + p.keys[..p.index]
    ensures NextKeys(p, |p.keys|).1 == p
  {
    var n, i := |p.keys|, p.index;
    var a := n - i;
    var first := NextKeys(p, a);
    NextKeysRun(p, a);
    assert first.0 == p.keys[i..] by { assert i + a == n; }
    var q := first.1;
    assert q == p.(index := 0);
    var second := NextKeys(q, i);
    NextKeysRun(q, i);
    assert second.0 == p.keys[..i];
    assert second.1 == p;
    NextKeysSplit(p, a, i);
    assert a + i == n;
  }

  /** `getRandomKey`: `draw` is `Math.floor(Math.random() * n)`, which lies
      in `[0, n)`. */
  function RandomKey(p: Pool, draw: nat): (r: Option<string>)
    requires |p.keys| > 0 ==> draw < |p.keys|
    ensures r.None? <==> |p.keys| == 0
    ensures r.Some? ==> r.value in p.keys && r.value == p.keys[draw]
  {
    if |p.keys| == 0 then None else Some(p.keys[draw])
  }

  /** Every key can be the random pick. */
  lemma RandomKeyReachesEveryKey(p: Pool, k: string)
    requires k in p.keys
    ensures exists draw: nat :: draw < |p.keys| && RandomKey(p, draw) == Some(k)
  {
    var d := FirstIndex(p.keys, k);
    assert RandomKey(p, d) == Some(k);
  }

  // ---------------------------------------------------------------------
  // Shuffle and key attempts
  // ---------------------------------------------------------------------

  /** The Fisher–Yates draws: step `i` (from `n - 1` down to 1) swaps
      position `i` with `draws[i]`, a number in `[0, i]`; `draws[0]` is unused. */
  predicate ValidDraws(draws: seq<nat>, n: nat) {
    |draws| == n && forall i :: 0 < i < n ==> draws[i] <= i
  }

  function Swap<T>(s: seq<T>, i: nat, j: nat): (r: seq<T>)
    requires i < |s| && j < |s|
    ensures |r| == |s| && multiset(r) == multiset(s)
    ensures r[i] == s[j] && r[j] == s[i]
    ensures forall k :: 0 <= k < |s| && k != i && k != j ==> r[k] == s[k]
  {
    s[i := s[j]][j := s[i]]
  }

  lemma SwapKeepsDistinct<T>(s: seq<T>, i: nat, j: nat)
    requires i < |s| && j < |s|
    ensures NoDuplicates(s) ==> NoDuplicates(Swap(s, i, j))
  {
    var r := Swap(s, i, j);
    forall a, b | 0 <= a < b < |r| && NoDuplicates(s)
      ensures r[a] != r[b]
    {
      var a' := if a == i then j else if a == j then i else a;
      var b' := if b == i then j else if b == j then i else b;
      assert r[a] == s[a'] && r[b] == s[b'] && a' != b';
    }
  }

  /** The shuffle loop from step `i` down to step 1. */
  function ShuffleDown<T>(s: seq<T>, draws: seq<nat>, i: nat): (r: seq<T>)
    requires i < |s| && |draws| == |s|
    requires forall k :: 0 < k <= i ==> draws[k] <= k
    ensures |r| == |s| && multiset(r) == multiset(s)
    ensures NoDuplicates(s) ==> NoDuplicates(r)
    decreases i
  {
    if i == 0 then s
    else
      SwapKeepsDistinct(s, i, draws[i]);
      ShuffleDown(Swap(s, i, draws[i]), draws, i - 1)
  }

  /** The in-place Fisher–Yates shuffle of a copy of the keys: a
      permutation of them; the pool itself is a value and stays as it was. */
  function Shuffle<T>(keys: seq<T>, draws: seq<nat>): (r: seq<T>)
    requires ValidDraws(draws, |keys|)
    ensures |r| == |keys| && multiset(r) == multiset(keys)
    ensures NoDuplicates(keys) ==> NoDuplicates(r)
  {
    if |keys| == 0 then keys else ShuffleDown(keys, draws, |keys| - 1)
  }

  /** Swapping a position with itself changes nothing. */
  lemma SwapSelf<T>(s: seq<T>, i: nat)
    requires i < |s|
    ensures Swap(s, i, i) == s
  {
    var r := Swap(s, i, i);
    assert forall k :: 0 <= k < |s| ==> r[k] == s[k];
  }

  /** Draws that always pick the current position leave the order alone. */
  lemma {:induction false} IdentityDrawsKeepOrder<T>(s: seq<T>, draws: seq<nat>, i: nat)
    requires i < |s| && |draws| == |s|
    requires forall k :: 0 < k <= i ==> draws[k] == k
    ensures ShuffleDown(s, draws, i) == s
    decreases i
  {
    if i > 0 {
      var d := draws[i];
      assert d == i;
      SwapSelf(s, i);
      assert Swap(s, i, d) == s;
      IdentityDrawsKeepOrder(s, draws, i - 1);
    }
  }

  /** The SDK call for one key: key, model name and prompt to the outcome. */
  type KeyCall = (string, string, Prompt) -> Reply

  /** `order[i]` is the first key in `order` whose call succeeds. */
  predicate FirstWorking(order: seq<string>, i: nat, model: string, prompt: Prompt, call: KeyCall) {
    && i < |order| && call(order[i], model, prompt).Ok?
    && forall k :: 0 <= k < i ==> call(order[k], model, prompt).Err?
  }

  /** The key loop of `generateContent`: the shuffled keys tried in order
      until one succeeds. */
  function KeyAttempts(p: Pool, draws: seq<nat>, model: string, prompt: Prompt, call: KeyCall)
    : (r: Run<string, Completion, string>)
    requires ValidDraws(draws, |p.keys|)
    ensures |r.tried| <= |p.keys| && r.tried == Shuffle(p.keys, draws)[..|r.tried|]
    ensures r.outcome.Ok? ==> |r.tried| > 0
                              && FirstWorking(Shuffle(p.keys, draws), |r.tried| - 1, model, prompt, call)
                              && Ok(r.outcome.value.value) == call(Shuffle(p.keys, draws)[|r.tried| - 1], model, prompt)
  {
    FirstSuccess(Shuffle(p.keys, draws), k => call(k, model, prompt))
  }

  /** A failed key loop has seen every key fail, in shuffled order, and
      reports the last one's error. */
  lemma KeyAttemptsExhaustedInOrder(p: Pool, draws: seq<nat>, model: string, prompt: Prompt, call: KeyCall)
    requires ValidDraws(draws, |p.keys|)
    requires KeyAttempts(p, draws, model, prompt, call).outcome.Err?
    ensures forall i :: 0 <= i < |p.keys| ==> call(Shuffle(p.keys, draws)[i], model, prompt).Err?
    ensures |p.keys| > 0 ==>
              && call(Shuffle(p.keys, draws)[|p.keys| - 1], model, prompt).Err?
              && KeyAttempts(p, draws, model, prompt, call).outcome.error
                 == Some(call(Shuffle(p.keys, draws)[|p.keys| - 1], model, prompt).error)
  {
    var order := Shuffle(p.keys, draws);
    var attempt := k => call(k, model, prompt);
    assert FirstSuccess(order, attempt) == KeyAttempts(p, draws, model, prompt, call);
    forall i | 0 <= i < |order|
      ensures call(order[i], model, prompt).Err?
    {
      assert attempt(order[i]) == call(order[i], model, prompt);
    }
  }

  /** A failed key loop has seen every key of the pool fail. */
  lemma KeyAttemptsExhausted(p: Pool, draws: seq<nat>, model: string, prompt: Prompt, call: KeyCall)
    requires ValidDraws(draws, |p.keys|)
    requires KeyAttempts(p, draws, model, prompt, call).outcome.Err?
    ensures forall k :: k in p.keys ==> call(k, model, prompt).Err?
    ensures |p.keys| > 0 ==>
              && Shuffle(p.keys, draws)[|p.keys| - 1] in p.keys
              && call(Shuffle(p.keys, draws)[|p.keys| - 1], model, prompt).Err?
              && KeyAttempts(p, draws, model, prompt, call).outcome.error
                 == Some(call(Shuffle(p.keys, draws)[|p.keys| - 1], model, prompt).error)
  {
    var order := Shuffle(p.keys, draws);
    KeyAttemptsExhaustedInOrder(p, draws, model, prompt, call);
    ShuffleSameKeys(p.keys, draws);
    forall k | k in p.keys
      ensures call(k, model, prompt).Err?
    {
      var i :| 0 <= i < |order| && order[i] == k;
    }
  }

  /** The shuffled keys are the keys. */
  lemma ShuffleSameKeys(keys: seq<string>, draws: seq<nat>)
    requires ValidDraws(draws, |keys|)
    ensures forall k :: k in Shuffle(keys, draws) <==> k in keys
  {
    var order := Shuffle(keys, draws);
    assert forall k :: k in order <==> k in multiset(order);
  }

  /** `generateContent`: fails at once on an empty pool; otherwise succeeds
      exactly when some key succeeds for the model, with the result of the
      first such key in shuffled order, and otherwise fails with the error
      of the last key tried. */
  function GenerateContent(p: Pool, draws: seq<nat>, model: string, prompt: Prompt, call: KeyCall)
    : (r: Reply)
    requires ValidDraws(draws, |p.keys|)
    ensures |p.keys| == 0 ==> r == Err(NoKeysMessage)
    ensures r.Ok? <==> exists k :: k in p.keys && call(k, model, prompt).Ok?
    ensures r.Ok? ==> exists k :: k in p.keys && call(k, model, prompt) == r
    ensures r.Err? && |p.keys| > 0 ==> exists k :: k in p.keys && call(k, model, prompt) == r
    ensures r.Err? && |p.keys| > 0 ==> r == call(Shuffle(p.keys, draws)[|p.keys| - 1], model, prompt)
    ensures r.Ok? ==> exists i: nat :: FirstWorking(Shuffle(p.keys, draws), i, model, prompt, call)
                                       && r == call(Shuffle(p.keys, draws)[i], model, prompt)
  {
    if |p.keys| == 0 then Err(NoKeysMessage)
    else
      var order := Shuffle(p.keys, draws);
      var run := KeyAttempts(p, draws, model, prompt, call);
      match run.outcome
      case Ok(w) =>
        var i := |run.tried| - 1;
        ShuffleSameKeys(p.keys, draws);
        assert FirstWorking(order, i, model, prompt, call);
        assert order[i] in p.keys;
        Ok(w.value)
      case Err(e) =>
        KeyAttemptsExhausted(p, draws, model, prompt, call);
        Err(e.value)
  }

  /** Each key is attempted at most once per call; a failed call has
      attempted every key. */
  lemma KeyAttemptsTryEachKeyOnce(p: Pool, draws: seq<nat>, model: string, prompt: Prompt, call: KeyCall)
    requires ValidDraws(draws, |p.keys|) && NoDuplicates(p.keys)
    ensures var run := KeyAttempts(p, draws, model, prompt, call);
            && NoDuplicates(run.tried)
            && (forall k :: k in run.tried ==> k in p.keys)
            && (run.outcome.Err? ==> forall k :: k in p.keys ==> k in run.tried)
  {
    var order := Shuffle(p.keys, draws);
    var run := KeyAttempts(p, draws, model, prompt, call);
    assert forall k :: k in order <==> k in multiset(order);
    assert forall k :: k in order[..|run.tried|] ==> k in order;
  }

  /** With a single working key among failing ones, the call succeeds with
      that key's result whatever the shuffle. */
  lemma SingleWorkingKeySuffices(p: Pool, draws: seq<nat>, model: string, prompt: Prompt,
                                 call: KeyCall, good: string)
    requires ValidDraws(draws, |p.keys|)
    requires good in p.keys && call(good, model, prompt).Ok?
    requires forall k :: k in p.keys && k != good ==> call(k, model, prompt).Err?
    ensures GenerateContent(p, draws, model, prompt, call) == call(good, model, prompt)
  {
  }
}

=== FILE: outcomes.dfy ===
/** Failure-carrying wrappers shared by every module of the model. */
module Outcomes {

  /** A value that may be absent: JavaScript's `undefined`/`null`, a parse that
      failed, a page that could not be fetched. */
  datatype Option<+T> = None | Some(value: T)

  /** The outcome of a call that either returns a value or throws an error. */
  datatype Result<+T, +E> = Ok(value: T) | Err(error: E)
}

=== FILE: recommend_route.dfy ===
/** `POST /api/recommend`: a two-model cascade over a single API key whose
    answer is stripped of code fences and parsed. Failures after the input
    check answer 500; only a missing key gives the fixed placeholder list.
    `JSON.parse` is an oracle returning a value of the opaque type `J`. */
module RecommendRoute {
  import opened Outcomes
  import opened Text
  import opened Environment
  import opened GenAi
  import opened Fallback
  import opened Requests

  const ApiKeyName: string := "GOOGLE_API_KEY"
  const RecommendModels: seq<string> := ["gemini-3-flash-preview", "gemini-3-pro-preview"]
  const InternalError: string := "Internal Server Error"
  const ParseError: string := "Failed to generate recommendations"

  /** The request body; `Unreadable` is a body `req.json()` rejects. */
  datatype RecommendRequest = Unreadable | RecommendBody(ingredients: Option<seq<string>>)

  datatype Recommendation = Recommendation(name: string, reason: string, difficulty: string, time: string)

  /** The response body: an error message, the fixed placeholder list, or
      whatever the model's answer parsed to. */
  datatype Body<J> = ErrorBody(error: string) | Placeholder(items: seq<Recommendation>) | Parsed(value: J)

  datatype RecommendResponse<J> = Response(status: nat, body: Body<J>)

  const Difficulties: set<string> := {"쉬움", "보통", "어려움"}

  /** The list answered when no API key is configured. */
  const PlaceholderRecommendations: seq<Recommendation> := [
    Recommendation("김치찌개", "김치가 있어 만들기 좋습니다.", "쉬움", "20분"),
    Recommendation("된장찌개", "기본적인 재료로 만들 수 있습니다.", "보통", "30분"),
    Recommendation("계란말이", "계란이 없어도 추천해봅니다.", "쉬움", "10분")
  ]

  /** The response for a model answer that was read: 500 when the stripped
      text does not parse, otherwise 200 with the parsed value. */
  function Classify<J>(text: string, parse: string -> Option<J>): (r: RecommendResponse<J>)
    ensures parse(StripFences(text)).None? ==> r == Response(500, ErrorBody(ParseError))
    ensures parse(StripFences(text)).Some? ==> r == Response(200, Parsed(parse(StripFences(text)).value))
  {
    match parse(StripFences(text))
    case None => Response(500, ErrorBody(ParseError))
    case Some(v) => Response(200, Parsed(v))
  }

  /** The answer a model text gets does not depend on fences already
      stripped: classifying the stripped text gives the same response, so
      the status and body are fixed by what survives the stripping. */
  lemma ClassifyIgnoresFences<J>(text: string, parse: string -> Option<J>)
    ensures Classify(text, parse) == Classify(StripFences(text), parse)
  {
    StripFencesIdempotent(text);
  }

  /** `POST`: 400 exactly for missing or empty ingredients; the placeholder
      list exactly when the key is missing; 200 with a parsed value, or 500. */
  function HandleRecommend<J>(req: RecommendRequest, env: Env, gen: Generator, parse: string -> Option<J>)
    : (r: RecommendResponse<J>)
    ensures r.status in {200, 400, 500}
    ensures r.status == 400 <==> req.RecommendBody? && MissingIngredients(req.ingredients)
    ensures r.status == 400 ==> r.body == ErrorBody(MissingIngredientsError)
    ensures r.body.Placeholder? <==>
              req.RecommendBody? && !MissingIngredients(req.ingredients) && !IsSet(env, ApiKeyName)
    ensures r.body.ErrorBody? <==> r.status != 200
    ensures req.Unreadable? ==> r == Response(500, ErrorBody(InternalError))
  {
    match req
    case Unreadable => Response(500, ErrorBody(InternalError))
    case RecommendBody(ing) =>
      if MissingIngredients(ing) then Response(400, ErrorBody(MissingIngredientsError))
      else if !IsSet(env, ApiKeyName) then Response(200, Placeholder(PlaceholderRecommendations))
      else
        var run := FirstSuccess(RecommendModels, m => gen(m, RecommendPrompt(ing.value)));
        match run.outcome
        case Err(_) => Response(500, ErrorBody(InternalError))
        case Ok(w) =>
          match w.value.text
          case None => Response(500, ErrorBody(InternalError))
          case Some(text) => Classify(text, parse)
  }

  /** Without an API key the answer is the three fixed recommendations, in
      their fixed order, each with a known difficulty, and no model is asked. */
  lemma PlaceholderWithoutKey<J>(ingredients: seq<string>, env: Env, gen: Generator, parse: string -> Option<J>)
    requires |ingredients| > 0 && !IsSet(env, "GOOGLE_API_KEY")
    ensures var r := HandleRecommend(RecommendBody(Some(ingredients)), env, gen, parse);
            && r.status == 200
            && r.body.Placeholder?
            && |r.body.items| == 3
            && r.body.items[0].name == "김치찌개"
            && r.body.items[1].name == "된장찌개"
            && r.body.items[2].name == "계란말이"
            && forall k :: 0 <= k < 3 ==> r.body.items[k].difficulty in {"쉬움", "보통", "어려움"}
  {
  }

  /** The cascade spelled out: "gemini-3-flash-preview" decides when it
      answers; "gemini-3-pro-preview" only when the first throws; both
      throwing is a 500, not the placeholder list. */
  lemma ModelOrder<J>(ingredients: seq<string>, env: Env, gen: Generator, parse: string -> Option<J>)
    requires |ingredients| > 0 && IsSet(env, "GOOGLE_API_KEY")
    ensures var r := HandleRecommend(RecommendBody(Some(ingredients)), env, gen, parse);
            var p := RecommendPrompt(ingredients);
            var first := gen("gemini-3-flash-preview", p);
            var second := gen("gemini-3-pro-preview", p);
            && (first.Ok? && first.value.text.Some? ==> r == Classify(first.value.text.value, parse))
            && (first.Err? && second.Ok? && second.value.text.Some? ==>
                  r == Classify(second.value.text.value, parse))
            && (first.Err? && second.Err? ==> r == Response(500, ErrorBody("Internal Server Error")))
            && ((first.Ok? && first.value.text.None?) || (first.Err? && second.Ok? && second.value.text.None?)
                ==> r == Response(500, ErrorBody("Internal Server Error")))
  {
    TwoOptions(RecommendModels[0], RecommendModels[1], m => gen(m, RecommendPrompt(ingredients)));
  }

  /** A successful answer is exactly the parsed, fence-stripped model text,
      the same whether or not the model wrapped it in a JSON code fence. */
  lemma FencedAnswerParsesAsBare<J>(ingredients: seq<string>, env: Env, gen: Generator,
                                    parse: string -> Option<J>, json: string)
    requires |ingredients| > 0 && IsSet(env, "GOOGLE_API_KEY")
    requires gen("gemini-3-flash-preview", RecommendPrompt(ingredients)) == Ok(Completion(Some("```json" + json + "```")))
    ensures HandleRecommend(RecommendBody(Some(ingredients)), env, gen, parse) == Classify(json, parse)
  {
    ModelOrder(ingredients, env, gen, parse);
    StripFencesUnwraps(json);
  }
}

=== FILE: requests.dfy ===
/** The input check both routes apply to the request body before anything
    else: a body without ingredients, or with an empty list of them, is
    answered with a 400 and this module's error message. */
module Requests {
  import opened Outcomes

  const MissingIngredientsError: string := "Ingredients are required"

  /** The ingredients field is absent or an empty list. */
  predicate MissingIngredients(ingredients: Option<seq<string>>) {
    ingredients.None? || |ingredients.value| == 0
  }
}

=== FILE: search_route.dfy ===
/** `POST /api/search`: plan search queries with a model cascade, run one
    web search per plan entry, in detailed mode verify the first results
    against their pages, and fall back to placeholder results instead of
    failing. The search service, the page fetch with text extraction and
    `JSON.parse` are oracle parameters. */
module SearchRoute {
  import opened Outcomes
  import opened Text
  import opened Environment
  import opened GenAi
  import opened Fallback
  import opened Requests

  const FastModel: string := "gemini-2.5-flash"
  const DetailedModel: string := "gemini-2.5-pro"
  const FallbackModel: string := "gemini-2.0-flash-exp"
  const DetailedMode: string := "detailed"
  /** Detailed mode verifies only this many leading results. */
  const AnalysisLimit: nat := 3
  /** Characters of page text handed to the verifying model. */
  const PageTextLimit: nat := 3000

  // ---------------------------------------------------------------------
  // Data
  // ---------------------------------------------------------------------

  /** The request body; `Unreadable` is a body `req.json()` rejects. */
  datatype SearchRequest =
    | Unreadable
    | SearchBody(ingredients: Option<seq<string>>, dish: Option<string>, mode: Option<string>)

  /** One result. `queryUsed` is absent on placeholders; `analyzed` is absent
      until detailed mode looks at the result; `analysisError` set means the
      field is present with value true. */
  datatype SearchResult = SearchResult(
    title: string, link: string, snippet: string, source: string,
    thumbnail: Option<string>, queryUsed: Option<string>,
    missingIngredients: seq<string>, analyzed: Option<bool>, analysisError: bool)

  /** A 400 with an error body, or a 200 with a result list. */
  datatype SearchResponse = BadRequest(error: string) | Results(results: seq<SearchResult>)

  function Status(r: SearchResponse): nat {
    if r.BadRequest? then 400 else 200
  }

  /** One entry of the model's plan. */
  datatype PlanEntry = PlanEntry(query: string, inferredMissingIngredients: seq<string>)

  /** What `JSON.parse` makes of the stripped plan text: a parse error, a
      value without `.map` (so `plan.map` throws), or a list of entries. */
  datatype PlanJson = NotJson | NotAList | PlanList(entries: seq<PlanEntry>)

  /** One item of the search service's answer, with the two thumbnail
      sources `pagemap.cse_thumbnail[0].src` and `pagemap.cse_image[0].src`. */
  datatype SearchItem = SearchItem(
    title: string, link: string, snippet: string, displayLink: string,
    cseThumbnail: Option<string>, cseImage: Option<string>)

  /** The outcome of one search request: it threw (network, JSON), or it
      answered with or without an `items` list. */
  datatype SearchOutcome = SearchThrew | SearchData(items: Option<seq<SearchItem>>)

  /** The verifying model's parsed answer: truthiness of `valid`, and
      `actualMissingIngredients` when it is a list. */
  datatype Verdict = Verdict(valid: bool, actualMissingIngredients: Option<seq<string>>)

  /** Why the placeholder results were returned. */
  datatype FallbackReason = AllModelsFailed | PlanParseFailed | SearchKeysMissing | NoResults

  function ReasonText(reason: FallbackReason): string {
    match reason
    case AllModelsFailed => "All Gemini models failed (404/Error). Check API Key permissions."
    case PlanParseFailed => "AI Response JSON Parse Failed"
    case SearchKeysMissing => "Google Search API Keys missing"
    case NoResults => "No search results found"
  }

  // ---------------------------------------------------------------------
  // Placeholders
  // ---------------------------------------------------------------------

  /** `s || fallback` for an optional string. */
  function OrDefault(s: Option<string>, fallback: string): string {
    if s.Some? && s.value != "" then s.value else fallback
  }

  const DefaultDish: string := "김치찌개"
  const DefaultIngredient: string := "재료"
  const MockTitleLead: string := "[예시] "
  const MockTitleTail: string := " 황금레시피 (API 키 확인 필요)"
  const MockSnippetLead: string := "API 연동에 문제가 있어 예시 결과를 보여드립니다. .env.local 설정을 확인해주세요. ("
  const MockSecondTitleLead: string := "[예시] 초간단 "
  const MockSecondTitleTail: string := " 활용 요리"

  /** The first placeholder's title, naming the dish or 김치찌개. */
  function MockTitle(dish: Option<string>): string {
    MockTitleLead + OrDefault(dish, DefaultDish) + MockTitleTail
  }

  /** The first placeholder's snippet, naming the reason. */
  function MockSnippet(reason: FallbackReason): string {
    MockSnippetLead + ReasonText(reason) + ")"
  }

  /** The second placeholder's title: `ingredients[0] || '재료'`. */
  function MockSecondTitle(ingredients: seq<string>): string {
    MockSecondTitleLead + OrDefault(if |ingredients| > 0 then Some(ingredients[0]) else None, DefaultIngredient)
      + MockSecondTitleTail
  }

  /** The part of `x + y + z` between a known lead and tail is `y`. */
  lemma Between(x: string, y: string, z: string)
    ensures |x| <= |x + y + z| - |z| && (x + y + z)[|x|..|x + y + z| - |z|] == y
  {
    var s := x + y + z;
    assert forall k :: 0 <= k < |y| ==> s[|x|..|s| - |z|][k] == y[k];
  }

  /** The end of `x + y` is `y`. */
  lemma EndsWith(x: string, y: string)
    ensures (x + y)[|x + y| - |y|..] == y
  {
    var s := x + y;
    assert forall k :: 0 <= k < |y| ==> s[|s| - |y|..][k] == y[k];
  }

  /** The two placeholders with their titles and first snippet left blank. */
  const MockFirst: SearchResult := SearchResult(
    "", "https://www.10000recipe.com/", "", "만개의레시피",
    Some("https://via.placeholder.com/150/orange/white?text=MockResult"),
    None, ["예시 재료 1", "예시 재료 2"], None, false)
  const MockSecond: SearchResult := SearchResult(
    "", "https://m.blog.naver.com/",
    "냉장고 파먹기 딱 좋은 레시피입니다. 이 결과는 실제 검색 결과가 아닙니다.",
    "네이버 블로그", None, None, ["추가 재료 A"], None, false)

  /** `runMockFallback(reason)`: two illustrative results naming the reason. */
  function MockItems(dish: Option<string>, ingredients: seq<string>, reason: FallbackReason)
    : (r: seq<SearchResult>)
    ensures |r| == 2
    ensures forall x :: x in r ==> x.queryUsed.None? && x.analyzed.None? && !x.analysisError
    ensures var snippet := r[0].snippet;
            |snippet| > |ReasonText(reason)| && snippet[|snippet| - |ReasonText(reason)| - 1..] == ReasonText(reason) + ")"
    ensures var title := r[0].title;
            && |MockTitleLead| <= |title| - |MockTitleTail|
            && (dish.Some? && dish.value != "" ==> title[|MockTitleLead|..|title| - |MockTitleTail|] == dish.value)
            && (dish.None? || dish.value == "" ==> title[|MockTitleLead|..|title| - |MockTitleTail|] == DefaultDish)
    ensures var title := r[1].title;
            && |MockSecondTitleLead| <= |title| - |MockSecondTitleTail|
            && (|ingredients| > 0 && ingredients[0] != "" ==>
                  title[|MockSecondTitleLead|..|title| - |MockSecondTitleTail|] == ingredients[0])
            && (|ingredients| == 0 || ingredients[0] == "" ==>
                  title[|MockSecondTitleLead|..|title| - |MockSecondTitleTail|] == DefaultIngredient)
  {
    EndsWith(MockSnippetLead, ReasonText(reason) + ")");
    assert MockSnippet(reason) == MockSnippetLead + (ReasonText(reason) + ")");
    Between(MockTitleLead, OrDefault(dish, DefaultDish), MockTitleTail);
    Between(MockSecondTitleLead,
            OrDefault(if |ingredients| > 0 then Some(ingredients[0]) else None, DefaultIngredient),
            MockSecondTitleTail);
    [ MockFirst.(title := MockTitle(dish), snippet := MockSnippet(reason)),
      MockSecond.(title := MockSecondTitle(ingredients)) ]
  }

  function Mock(dish: Option<string>, ingredients: seq<string>, reason: FallbackReason): SearchResponse
  {
    Results(MockItems(dish, ingredients, reason))
  }

  /** The single result returned when an exception reaches the outer catch. */
  const ErrorItem: SearchResult := SearchResult(
    "오류가 발생했지만 결과 예시를 보여드립니다",
    "#",
    "서버 에러가 발생하여 실제 결과를 가져오지 못했습니다. 잠시 후 다시 시도해주세요.",
    "System", None, None, [], None, false)

  // ---------------------------------------------------------------------
  // Stages
  // ---------------------------------------------------------------------

  predicate IsDetailed(mode: Option<string>) {
    mode == Some(DetailedMode)
  }

  /** The plan cascade: the model preferred by the mode, then the fallback. */
  function PlanModels(mode: Option<string>): seq<string> {
    [if IsDetailed(mode) then DetailedModel else FastModel, FallbackModel]
  }

  /** The verification cascade: the model that produced the plan, then the fallback. */
  function AnalysisModels(usedModel: string): seq<string> {
    [usedModel, FallbackModel]
  }

  /** Both search credentials present: `GOOGLE_SEARCH_API_KEY || GOOGLE_SEARCH_API_KEY_1`
      and `GOOGLE_SEARCH_CX || GOOGLE_SEARCH_CX_1`. */
  predicate SearchConfigured(env: Env) {
    && (IsSet(env, "GOOGLE_SEARCH_API_KEY") || IsSet(env, "GOOGLE_SEARCH_API_KEY_1"))
    && (IsSet(env, "GOOGLE_SEARCH_CX") || IsSet(env, "GOOGLE_SEARCH_CX_1"))
  }

  /** The plan stage: the cascade over `PlanModels(mode)`. */
  function PlanStage(ingredients: seq<string>, dish: Option<string>, mode: Option<string>, gen: Generator)
    : Run<string, Completion, string>
  {
    FirstSuccess(PlanModels(mode), m => gen(m, PlanPrompt(ingredients, dish)))
  }

  /** The plan cascade spelled out: the mode's preferred model wins when it
      answers, the fallback is asked only when it does not, and the stage
      fails only when both fail. */
  lemma {:induction false} PlanCascadeOrder(ingredients: seq<string>, dish: Option<string>, mode: Option<string>, gen: Generator)
    ensures var first := if mode == Some("detailed") then "gemini-2.5-pro" else "gemini-2.5-flash";
            var p := PlanPrompt(ingredients, dish);
            var run := PlanStage(ingredients, dish, mode, gen);
            && (gen(first, p).Ok? ==> run.outcome == Ok(Win(first, gen(first, p).value)))
            && (gen(first, p).Err? && gen("gemini-2.0-flash-exp", p).Ok? ==>
                  run.outcome == Ok(Win("gemini-2.0-flash-exp", gen("gemini-2.0-flash-exp", p).value)))
            && (gen(first, p).Err? && gen("gemini-2.0-flash-exp", p).Err? ==> run.outcome.Err?)
  {
    TwoOptions(PlanModels(mode)[0], FallbackModel, m => gen(m, PlanPrompt(ingredients, dish)));
  }

  /** The thumbnail: `cse_thumbnail` if truthy, else `cse_image`. */
  function Thumbnail(item: SearchItem): (r: Option<string>)
    ensures item.cseThumbnail.Some? && item.cseThumbnail.value != "" ==> r == item.cseThumbnail
    ensures item.cseThumbnail.None? || item.cseThumbnail.value == "" ==> r == item.cseImage
    ensures r.None? <==> (item.cseThumbnail.None? || item.cseThumbnail.value == "") && item.cseImage.None?
  {
    if item.cseThumbnail.Some? && item.cseThumbnail.value != "" then item.cseThumbnail else item.cseImage
  }

  /** A search item as a result of plan entry `e`. */
  function FromItem(e: PlanEntry, item: SearchItem): SearchResult {
    SearchResult(item.title, item.link, item.snippet, item.displayLink, Thumbnail(item),
                 Some(e.query), e.inferredMissingIngredients, None, false)
  }

  /** The results one plan entry contributes: none when the search threw or
      had no items, otherwise one per item in the service's order. */
  function EntryResults(e: PlanEntry, outcome: SearchOutcome): (r: seq<SearchResult>)
    ensures outcome.SearchThrew? || outcome.items.None? ==> r == []
    ensures outcome.SearchData? && outcome.items.Some? ==>
              |r| == |outcome.items.value|
              && forall k :: 0 <= k < |r| ==>
                   r[k].link == outcome.items.value[k].link
                   && r[k].title == outcome.items.value[k].title
                   && r[k].source == outcome.items.value[k].displayLink
                   && r[k].snippet == outcome.items.value[k].snippet
                   && r[k].thumbnail == Thumbnail(outcome.items.value[k])
    ensures forall x :: x in r ==>
              x.missingIngredients == e.inferredMissingIngredients
              && x.queryUsed == Some(e.query) && x.analyzed.None? && !x.analysisError
  {
    match outcome
    case SearchThrew => []
    case SearchData(None) => []
    case SearchData(Some(items)) => seq(|items|, k requires 0 <= k < |items| => FromItem(e, items[k]))
  }

  /** `Promise.all` over the plan followed by `.flat()`. */
  function Flatten(entries: seq<PlanEntry>, search: string -> SearchOutcome): seq<SearchResult> {
    if |entries| == 0 then []
    else EntryResults(entries[0], search(entries[0].query)) + Flatten(entries[1..], search)
  }

  /** Flattening follows plan order: the results of a concatenated plan are
      the concatenated results. */
  lemma {:induction false} FlattenConcat(a: seq<PlanEntry>, b: seq<PlanEntry>, search: string -> SearchOutcome)
    ensures Flatten(a + b, search) == Flatten(a, search) + Flatten(b, search)
    decreases |a|
  {
    if |a| == 0 {
      assert a + b == b;
    } else {
      assert (a + b)[0] == a[0];
      assert (a + b)[1..] == a[1..] + b;
      FlattenConcat(a[1..], b, search);
    }
  }

  /** A plan entry whose search failed or found nothing contributes nothing. */
  lemma {:induction false} FailedEntryContributesNothing(a: seq<PlanEntry>, e: PlanEntry, b: seq<PlanEntry>,
                                      search: string -> SearchOutcome)
    requires search(e.query).SearchThrew? || search(e.query).items.None?
    ensures Flatten(a + [e] + b, search) == Flatten(a, search) + Flatten(b, search)
  {
    var ae := a + [e];
    FlattenConcat(ae, b, search);
    FlattenConcat(a, [e], search);
    FlattenFailedEntry(e, search);
    assert Flatten(ae, search) == Flatten(a, search);
  }

  lemma FlattenFailedEntry(e: PlanEntry, search: string -> SearchOutcome)
    requires search(e.query).SearchThrew? || search(e.query).items.None?
    ensures Flatten([e], search) == []
  {
    assert [e][1..] == [];
  }

  /** Every flattened result carries the query and the inferred missing
      ingredients of a plan entry, and has not been analysed. */
  lemma {:induction false} FlattenProvenance(entries: seq<PlanEntry>, search: string -> SearchOutcome)
    ensures forall x :: x in Flatten(entries, search) ==>
              x.analyzed.None? && !x.analysisError
              && exists e :: e in entries && x.queryUsed == Some(e.query)
                             && x.missingIngredients == e.inferredMissingIngredients
    decreases |entries|
  {
    if |entries| > 0 {
      FlattenProvenance(entries[1..], search);
      var head := EntryResults(entries[0], search(entries[0].query));
      forall x | x in Flatten(entries, search)
        ensures x.analyzed.None? && !x.analysisError
        ensures exists e :: e in entries && x.queryUsed == Some(e.query)
                            && x.missingIngredients == e.inferredMissingIngredients
      {
        if x in head {
          assert entries[0] in entries;
        } else {
          assert x in Flatten(entries[1..], search);
          var e :| e in entries[1..] && x.queryUsed == Some(e.query)
                   && x.missingIngredients == e.inferredMissingIngredients;
          assert e in entries;
        }
      }
    }
  }

  /** `$('body').text().replace(/\s+/g, ' ').trim().substring(0, 3000)`
      applied to the extracted page text. */
  function NormalizePageText(raw: string): (r: string)
    ensures |r| <= PageTextLimit
    ensures WhitespaceIsSpace(r) && SingleSpaced(r)
    ensures |r| == 0 || !IsWhitespace(r[0])
    ensures |r| <= |Trim(CollapseWhitespace(raw))| && r == Trim(CollapseWhitespace(raw))[..|r|]
    ensures |r| == if |Trim(CollapseWhitespace(raw))| <= PageTextLimit then |Trim(CollapseWhitespace(raw))|
                   else PageTextLimit
    ensures |Trim(CollapseWhitespace(raw))| <= PageTextLimit ==> Visible(r) == Visible(raw)
  {
    var collapsed := CollapseWhitespace(raw);
    var full := Trim(collapsed);
    TrimKeepsSpacing(collapsed);
    TrimKeepsVisible(collapsed);
    var r := Cut(full, PageTextLimit);
    SliceKeepsSpacing(full, 0, |r|);
    assert full[0..|r|] == r;
    r
  }

  /** The first `limit` characters of `s`, or all of them when there are fewer. */
  function Cut(s: string, limit: nat): (r: string)
    ensures |r| == if |s| <= limit then |s| else limit
    ensures r == s[..|r|]
  {
    if |s| <= limit then s else s[..limit]
  }

  /** A result kept without verification: `{ ...res, analyzed: false, analysisError: true }`. */
  function Unanalyzed(res: SearchResult): SearchResult {
    res.(analyzed := Some(false), analysisError := true)
  }

  /** Same hit: everything but the ingredient fields and the analysis flags. */
  predicate SameHit(x: SearchResult, y: SearchResult) {
    && x.title == y.title && x.link == y.link && x.snippet == y.snippet
    && x.source == y.source && x.thumbnail == y.thumbnail && x.queryUsed == y.queryUsed
  }

  /** The verdict the verification of `res` reaches, or `None` when a step
      throws: page fetch, both verification models, reading the text, or
      parsing the stripped answer. */
  function AnalysisVerdict(res: SearchResult, usedModel: string, ingredients: seq<string>,
                           gen: Generator, page: string -> Option<string>,
                           parseVerdict: string -> Option<Verdict>): Option<Verdict>
  {
    match page(res.link)
    case None => None
    case Some(raw) =>
      var run := FirstSuccess(AnalysisModels(usedModel),
                              m => gen(m, AnalysisPrompt(ingredients, NormalizePageText(raw))));
      match run.outcome
      case Err(_) => None
      case Ok(w) =>
        match w.value.text
        case None => None
        case Some(t) => parseVerdict(StripFences(t))
  }

  /** The verification cascade spelled out: no page means no verdict; the
      model that produced the plan decides when it answers; the fallback
      model only when the first throws; both throwing, or an answer without
      text, means no verdict; otherwise the verdict is the parsed,
      fence-stripped text of the model that answered. */
  lemma AnalysisCascade(res: SearchResult, usedModel: string, ingredients: seq<string>,
                        gen: Generator, page: string -> Option<string>,
                        parseVerdict: string -> Option<Verdict>)
    ensures page(res.link).None? ==> AnalysisVerdict(res, usedModel, ingredients, gen, page, parseVerdict).None?
    ensures page(res.link).Some? ==>
              var p := AnalysisPrompt(ingredients, NormalizePageText(page(res.link).value));
              var v := AnalysisVerdict(res, usedModel, ingredients, gen, page, parseVerdict);
              var first := gen(usedModel, p);
              var second := gen("gemini-2.0-flash-exp", p);
              && (first.Ok? && first.value.text.Some? ==> v == parseVerdict(StripFences(first.value.text.value)))
              && (first.Err? && second.Ok? && second.value.text.Some? ==>
                    v == parseVerdict(StripFences(second.value.text.value)))
              && (first.Err? && second.Err? ==> v.None?)
              && ((first.Ok? && first.value.text.None?) || (first.Err? && second.Ok? && second.value.text.None?)
                  ==> v.None?)
  {
    if page(res.link).Some? {
      var p := AnalysisPrompt(ingredients, NormalizePageText(page(res.link).value));
      TwoOptions(usedModel, FallbackModel, m => gen(m, p));
    }
  }

  /** One detailed-mode slot: a valid verdict with a list replaces the
      missing ingredients and marks the result analysed; an invalid verdict
      drops the slot; every failure keeps the result as it was, flagged
      unanalysed. Logging the verdict's list throws when it is not a list,
      which counts as a failure. */
  function AnalyzeOne(res: SearchResult, usedModel: string, ingredients: seq<string>,
                      gen: Generator, page: string -> Option<string>,
                      parseVerdict: string -> Option<Verdict>): (r: Option<SearchResult>)
    ensures var v := AnalysisVerdict(res, usedModel, ingredients, gen, page, parseVerdict);
            && (r.None? <==> v.Some? && !v.value.valid)
            && (v.Some? && v.value.valid && v.value.actualMissingIngredients.Some? ==>
                  r == Some(res.(missingIngredients := v.value.actualMissingIngredients.value,
                                 analyzed := Some(true))))
            && (v.None? || (v.value.valid && v.value.actualMissingIngredients.None?) ==>
                  r == Some(Unanalyzed(res)))
    ensures page(res.link).None? ==> r == Some(Unanalyzed(res))
    ensures r.Some? ==> SameHit(r.value, res) && r.value.analyzed.Some?
  {
    match AnalysisVerdict(res, usedModel, ingredients, gen, page, parseVerdict)
    case None => Some(Unanalyzed(res))
    case Some(v) =>
      if !v.valid then None
      else match v.actualMissingIngredients
        case None => Some(Unanalyzed(res))
        case Some(missing) => Some(res.(missingIngredients := missing, analyzed := Some(true)))
  }

  /** `idx` lists strictly increasing positions into `src` at which `out`'s
      results were found, in order. */
  ghost predicate IsSelection(idx: seq<nat>, out: seq<SearchResult>, src: seq<SearchResult>) {
    && |idx| == |out|
    && (forall t :: 0 <= t < |idx| ==> idx[t] < |src| && SameHit(out[t], src[idx[t]]))
    && (forall s, t :: 0 <= s < t < |idx| ==> idx[s] < idx[t])
  }

  /** `out` is `src` with some results dropped and the rest kept in order. */
  ghost predicate OrderedSelection(out: seq<SearchResult>, src: seq<SearchResult>) {
    exists idx: seq<nat> :: IsSelection(idx, out, src)
  }

  /** The analysed slots with the dropped ones filtered out. */
  function AnalyzeSlots(slots: seq<SearchResult>, usedModel: string, ingredients: seq<string>,
                        gen: Generator, page: string -> Option<string>,
                        parseVerdict: string -> Option<Verdict>): (r: seq<SearchResult>)
    ensures |r| <= |slots|
    ensures forall x :: x in r ==> x.analyzed.Some?
  {
    if |slots| == 0 then []
    else
      var head := AnalyzeOne(slots[0], usedModel, ingredients, gen, page, parseVerdict);
      Kept(head) + AnalyzeSlots(slots[1..], usedModel, ingredients, gen, page, parseVerdict)
  }

  /** The `filter(r => r !== null)` of one slot. */
  function Kept(x: Option<SearchResult>): (r: seq<SearchResult>)
    ensures |r| <= 1 && (x.Some? ==> r == [x.value]) && (x.None? ==> r == [])
  {
    if x.Some? then [x.value] else []
  }

  /** Putting an optional first slot in front of an ordered selection from
      the rest gives an ordered selection from all the slots. */
  lemma {:induction false} SelectionExtend(rest: seq<SearchResult>, slots: seq<SearchResult>,
                                           head: Option<SearchResult>)
    requires |slots| > 0 && OrderedSelection(rest, slots[1..])
    requires head.Some? ==> SameHit(head.value, slots[0])
    ensures OrderedSelection(Kept(head) + rest, slots)
  {
    var idx' :| IsSelection(idx', rest, slots[1..]);
    var shifted := SelectionShift(idx', rest, slots);
    if head.Some? {
      SelectionCons(shifted, head.value, rest, slots);
    } else {
      assert Kept(head) + rest == rest;
    }
  }

  /** A selection from `slots[1..]` is one from `slots` at positions one higher. */
  lemma {:induction false} SelectionShift(idx: seq<nat>, out: seq<SearchResult>, slots: seq<SearchResult>)
    returns (shifted: seq<nat>)
    requires |slots| > 0 && IsSelection(idx, out, slots[1..])
    ensures IsSelection(shifted, out, slots)
    ensures forall t :: 0 <= t < |shifted| ==> shifted[t] > 0
  {
    shifted := seq(|idx|, t requires 0 <= t < |idx| => idx[t] + 1);
    forall t | 0 <= t < |shifted|
      ensures shifted[t] < |slots| && SameHit(out[t], slots[shifted[t]])
    {
      assert slots[shifted[t]] == slots[1..][idx[t]];
    }
    forall a, b | 0 <= a < b < |shifted|
      ensures shifted[a] < shifted[b]
    {
      assert idx[a] < idx[b];
    }
  }

  /** A result matching the first slot can be put in front of a selection
      that avoids the first slot. */
  lemma {:induction false} SelectionCons(idx: seq<nat>, x: SearchResult, out: seq<SearchResult>, slots: seq<SearchResult>)
    requires |slots| > 0 && IsSelection(idx, out, slots) && SameHit(x, slots[0])
    requires forall t :: 0 <= t < |idx| ==> idx[t] > 0
    ensures IsSelection([0] + idx, [x] + out, slots)
  {
    var idx', out' := [0] + idx, [x] + out;
    forall t | 0 <= t < |idx'|
      ensures idx'[t] < |slots| && SameHit(out'[t], slots[idx'[t]])
    {
      if t > 0 {
        assert idx'[t] == idx[t - 1] && out'[t] == out[t - 1];
      }
    }
    forall a, b | 0 <= a < b < |idx'|
      ensures idx'[a] < idx'[b]
    {
      assert idx'[b] == idx[b - 1];
      if a > 0 {
        assert idx'[a] == idx[a - 1];
      }
    }
  }

  /** The surviving slots keep their relative order. */
  lemma {:induction false} AnalyzeSlotsKeepOrder(slots: seq<SearchResult>, usedModel: string,
                                                 ingredients: seq<string>, gen: Generator,
                                                 page: string -> Option<string>,
                                                 parseVerdict: string -> Option<Verdict>)
    ensures OrderedSelection(AnalyzeSlots(slots, usedModel, ingredients, gen, page, parseVerdict), slots)
    decreases |slots|
  {
    if |slots| == 0 {
      var idx: seq<nat> := [];
      assert IsSelection(idx, AnalyzeSlots(slots, usedModel, ingredients, gen, page, parseVerdict), slots);
    } else {
      AnalyzeSlotsKeepOrder(slots[1..], usedModel, ingredients, gen, page, parseVerdict);
      var head := AnalyzeOne(slots[0], usedModel, ingredients, gen, page, parseVerdict);
      SelectionExtend(AnalyzeSlots(slots[1..], usedModel, ingredients, gen, page, parseVerdict), slots, head);
    }
  }

  /** Each slot's verification outcome, in slot order. */
  function SlotOutcomes(slots: seq<SearchResult>, usedModel: string, ingredients: seq<string>,
                        gen: Generator, page: string -> Option<string>,
                        parseVerdict: string -> Option<Verdict>): seq<Option<SearchResult>>
  {
    seq(|slots|, k requires 0 <= k < |slots| => AnalyzeOne(slots[k], usedModel, ingredients, gen, page, parseVerdict))
  }

  /** `out` holds exactly the present outcomes, in slot order: `idx` lists,
      increasing, the slots whose outcome is present, and `out[t]` is the
      outcome of slot `idx[t]`. */
  ghost predicate Survivors(idx: seq<nat>, out: seq<SearchResult>, outcomes: seq<Option<SearchResult>>) {
    && |idx| == |out|
    && (forall t :: 0 <= t < |idx| ==> idx[t] < |outcomes| && outcomes[idx[t]] == Some(out[t]))
    && (forall s, t :: 0 <= s < t < |idx| ==> idx[s] < idx[t])
    && (forall k :: 0 <= k < |outcomes| && outcomes[k].Some? ==> k in idx)
  }

  /** Survivors of `outcomes[1..]` are survivors of `outcomes` at positions
      one higher, complete for every slot but the first. */
  lemma {:induction false} SurvivorsShift(idx: seq<nat>, out: seq<SearchResult>,
                                          outcomes: seq<Option<SearchResult>>)
    returns (shifted: seq<nat>)
    requires |outcomes| > 0 && Survivors(idx, out, outcomes[1..])
    ensures |shifted| == |out|
    ensures forall t :: 0 <= t < |shifted| ==>
              0 < shifted[t] < |outcomes| && outcomes[shifted[t]] == Some(out[t])
    ensures forall s, t :: 0 <= s < t < |shifted| ==> shifted[s] < shifted[t]
    ensures forall k :: 0 < k < |outcomes| && outcomes[k].Some? ==> k in shifted
  {
    shifted := seq(|idx|, t requires 0 <= t < |idx| => idx[t] + 1);
    forall t | 0 <= t < |shifted|
      ensures 0 < shifted[t] < |outcomes| && outcomes[shifted[t]] == Some(out[t])
    {
      assert outcomes[idx[t] + 1] == outcomes[1..][idx[t]];
    }
    forall k | 0 < k < |outcomes| && outcomes[k].Some?
      ensures k in shifted
    {
      assert outcomes[1..][k - 1] == outcomes[k];
      assert k - 1 in idx;
      var t :| 0 <= t < |idx| && idx[t] == k - 1;
      assert shifted[t] == k;
    }
  }

  /** A present first outcome goes in front of the shifted survivors. */
  lemma {:induction false} SurvivorsPrepend(shifted: seq<nat>, out: seq<SearchResult>,
                                            outcomes: seq<Option<SearchResult>>)
    requires |outcomes| > 0 && outcomes[0].Some? && |shifted| == |out|
    requires forall t :: 0 <= t < |shifted| ==>
               0 < shifted[t] < |outcomes| && outcomes[shifted[t]] == Some(out[t])
    requires forall s, t :: 0 <= s < t < |shifted| ==> shifted[s] < shifted[t]
    requires forall k :: 0 < k < |outcomes| && outcomes[k].Some? ==> k in shifted
    ensures Survivors([0] + shifted, [outcomes[0].value] + out, outcomes)
  {
    var idx', out' := [0] + shifted, [outcomes[0].value] + out;
    assert forall t :: 0 < t < |idx'| ==> idx'[t] == shifted[t - 1] && out'[t] == out[t - 1];
    PrependedIncreasing(shifted);
    assert forall k :: 0 <= k < |outcomes| && outcomes[k].Some? ==> k in idx' by {
      forall k | 0 <= k < |outcomes| && outcomes[k].Some?
        ensures k in idx'
      {
        if k == 0 {
          assert idx'[0] == 0;
        } else {
          var t :| 0 <= t < |shifted| && shifted[t] == k;
          assert idx'[t + 1] == k;
        }
      }
    }
  }

  /** Zero in front of increasing positive positions keeps them increasing. */
  lemma PrependedIncreasing(shifted: seq<nat>)
    requires forall t :: 0 <= t < |shifted| ==> 0 < shifted[t]
    requires forall s, t :: 0 <= s < t < |shifted| ==> shifted[s] < shifted[t]
    ensures var idx' := [0] + shifted;
            forall a, b :: 0 <= a < b < |idx'| ==> idx'[a] < idx'[b]
  {
    var idx' := [0] + shifted;
    forall a, b | 0 <= a < b < |idx'|
      ensures idx'[a] < idx'[b]
    {
      assert idx'[b] == shifted[b - 1];
      if a > 0 {
        assert idx'[a] == shifted[a - 1];
      }
    }
  }

  /** An absent first outcome leaves the shifted survivors as they are. */
  lemma {:induction false} SurvivorsSkip(shifted: seq<nat>, out: seq<SearchResult>,
                                         outcomes: seq<Option<SearchResult>>)
    requires |outcomes| > 0 && outcomes[0].None? && |shifted| == |out|
    requires forall t :: 0 <= t < |shifted| ==>
               0 < shifted[t] < |outcomes| && outcomes[shifted[t]] == Some(out[t])
    requires forall s, t :: 0 <= s < t < |shifted| ==> shifted[s] < shifted[t]
    requires forall k :: 0 < k < |outcomes| && outcomes[k].Some? ==> k in shifted
    ensures Survivors(shifted, out, outcomes)
  {
  }

  /** Keeping the first outcome, when present, in front of the survivors of
      the rest gives the survivors of all the outcomes. */
  lemma {:induction false} SurvivorsCons(idx: seq<nat>, out: seq<SearchResult>,
                                         outcomes: seq<Option<SearchResult>>)
    returns (idx': seq<nat>)
    requires |outcomes| > 0 && Survivors(idx, out, outcomes[1..])
    ensures Survivors(idx', Kept(outcomes[0]) + out, outcomes)
  {
    var shifted := SurvivorsShift(idx, out, outcomes);
    if outcomes[0].Some? {
      SurvivorsPrepend(shifted, out, outcomes);
      idx' := [0] + shifted;
    } else {
      SurvivorsSkip(shifted, out, outcomes);
      assert Kept(outcomes[0]) + out == out;
      idx' := shifted;
    }
  }

  /** The analysed slots are exactly the slots whose outcome is present, in
      slot order, each replaced by its outcome. */
  lemma {:induction false} AnalyzeSlotsSurvivors(slots: seq<SearchResult>, usedModel: string,
                                                 ingredients: seq<string>, gen: Generator,
                                                 page: string -> Option<string>,
                                                 parseVerdict: string -> Option<Verdict>)
    returns (idx: seq<nat>)
    ensures Survivors(idx, AnalyzeSlots(slots, usedModel, ingredients, gen, page, parseVerdict),
                      SlotOutcomes(slots, usedModel, ingredients, gen, page, parseVerdict))
    decreases |slots|
  {
    var outcomes := SlotOutcomes(slots, usedModel, ingredients, gen, page, parseVerdict);
    if |slots| == 0 {
      idx := [];
    } else {
      var tail := AnalyzeSlotsSurvivors(slots[1..], usedModel, ingredients, gen, page, parseVerdict);
      assert SlotOutcomes(slots[1..], usedModel, ingredients, gen, page, parseVerdict) == outcomes[1..];
      idx := SurvivorsCons(tail, AnalyzeSlots(slots[1..], usedModel, ingredients, gen, page, parseVerdict),
                           outcomes);
    }
  }

  /** The results detailed mode verifies: the first `AnalysisLimit`. */
  function Leading(results: seq<SearchResult>): (r: seq<SearchResult>)
    ensures |r| == if |results| <= AnalysisLimit then |results| else AnalysisLimit
    ensures r == results[..|r|]
  {
    if |results| <= AnalysisLimit then results else results[..AnalysisLimit]
  }

  /** Detailed-mode verification: only the first `AnalysisLimit` results
      are looked at, and exactly those whose verification does not drop
      them remain, in order, each replaced by its verified form. */
  function Verify(results: seq<SearchResult>, usedModel: string, ingredients: seq<string>,
                  gen: Generator, page: string -> Option<string>,
                  parseVerdict: string -> Option<Verdict>): (r: seq<SearchResult>)
    ensures |r| <= AnalysisLimit && |r| <= |results|
    ensures OrderedSelection(r, results)
    ensures exists idx :: Survivors(idx, r, SlotOutcomes(Leading(results), usedModel, ingredients,
                                                         gen, page, parseVerdict))
    ensures forall x :: x in r ==> x.analyzed.Some?
  {
    var top := Leading(results);
    AnalyzeSlotsKeepOrder(top, usedModel, ingredients, gen, page, parseVerdict);
    var r := AnalyzeSlots(top, usedModel, ingredients, gen, page, parseVerdict);
    assert exists idx :: Survivors(idx, r, SlotOutcomes(top, usedModel, ingredients, gen, page, parseVerdict)) by {
      var idx := AnalyzeSlotsSurvivors(top, usedModel, ingredients, gen, page, parseVerdict);
    }
    assert OrderedSelection(r, results) by {
      var idx :| IsSelection(idx, r, top);
      assert forall t :: 0 <= t < |idx| ==> top[idx[t]] == results[idx[t]];
      assert IsSelection(idx, r, results);
    }
    r
  }

  /** When no page can be fetched, detailed mode keeps every leading slot,
      unanalysed and with the inferred ingredients. */
  lemma {:induction false} UnreachablePagesKeepSlots(slots: seq<SearchResult>, usedModel: string,
                                                     ingredients: seq<string>, gen: Generator,
                                                     page: string -> Option<string>,
                                                     parseVerdict: string -> Option<Verdict>)
    requires forall x :: x in slots ==> page(x.link).None?
    ensures AnalyzeSlots(slots, usedModel, ingredients, gen, page, parseVerdict)
            == seq(|slots|, k requires 0 <= k < |slots| => Unanalyzed(slots[k]))
    decreases |slots|
  {
    if |slots| > 0 {
      UnreachablePagesKeepSlots(slots[1..], usedModel, ingredients, gen, page, parseVerdict);
      assert slots[0] in slots;
    }
  }

  /** Detailed mode with no fetchable page: the first `AnalysisLimit`
      results, each kept unanalysed, and nothing dropped among them. */
  lemma {:induction false} VerifyWithUnreachablePages(results: seq<SearchResult>, usedModel: string,
                                   ingredients: seq<string>, gen: Generator,
                                   page: string -> Option<string>,
                                   parseVerdict: string -> Option<Verdict>)
    requires forall x :: x in results ==> page(x.link).None?
    ensures var n := if |results| <= AnalysisLimit then |results| else AnalysisLimit;
            Verify(results, usedModel, ingredients, gen, page, parseVerdict)
            == seq(n, k requires 0 <= k < n => Unanalyzed(results[k]))
  {
    var top := if |results| <= AnalysisLimit then results else results[..AnalysisLimit];
    UnreachablePagesKeepSlots(top, usedModel, ingredients, gen, page, parseVerdict);
  }

  // ---------------------------------------------------------------------
  // The handler
  // ---------------------------------------------------------------------

  /** `POST`: 400 exactly when the ingredients are missing or empty; every
      other outcome, including every upstream failure, is a 200 with at
      least one result. */
  function HandleSearch(req: SearchRequest, env: Env, gen: Generator,
                        search: string -> SearchOutcome, page: string -> Option<string>,
                        parsePlan: string -> PlanJson, parseVerdict: string -> Option<Verdict>)
    : (r: SearchResponse)
    ensures r.BadRequest? <==> req.SearchBody? && MissingIngredients(req.ingredients)
    ensures r.BadRequest? ==> r.error == MissingIngredientsError
    ensures r.Results? ==> |r.results| > 0
  {
    match req
    case Unreadable => Results([ErrorItem])
    case SearchBody(ing, dish, mode) =>
      if MissingIngredients(ing) then BadRequest(MissingIngredientsError)
      else PlanAndSearch(ing.value, dish, mode, env, gen, search, page, parsePlan, parseVerdict)
  }

  /** Everything after the input check: the plan stage, then the search
      stage, each falling back to the placeholders or the error list. */
  function PlanAndSearch(ingredients: seq<string>, dish: Option<string>, mode: Option<string>,
                         env: Env, gen: Generator,
                         search: string -> SearchOutcome, page: string -> Option<string>,
                         parsePlan: string -> PlanJson, parseVerdict: string -> Option<Verdict>)
    : (r: SearchResponse)
    ensures r.Results? && |r.results| > 0
  {
    var plan := PlanStage(ingredients, dish, mode, gen);
    match plan.outcome
    case Err(_) => Mock(dish, ingredients, AllModelsFailed)
    case Ok(w) =>
      match w.value.text
      case None => Results([ErrorItem])
      case Some(text) =>
        var parsed := parsePlan(StripFences(text));
        if parsed.NotJson? then Mock(dish, ingredients, PlanParseFailed)
        else if !SearchConfigured(env) then Mock(dish, ingredients, SearchKeysMissing)
        else if parsed.NotAList? then Results([ErrorItem])
        else SearchStage(parsed.entries, ingredients, dish, mode, w.choice, gen, search, page, parseVerdict)
  }

  /** Steps 2 and 3 for a plan that is a list: search every entry, verify in
      detailed mode, and fall back to the placeholders when nothing is left. */
  function SearchStage(entries: seq<PlanEntry>, ingredients: seq<string>, dish: Option<string>,
                       mode: Option<string>, usedModel: string, gen: Generator,
                       search: string -> SearchOutcome, page: string -> Option<string>,
                       parseVerdict: string -> Option<Verdict>): (r: SearchResponse)
    ensures r.Results? && |r.results| > 0
  {
    var flat := Flatten(entries, search);
    var final := if IsDetailed(mode) && |flat| > 0
                 then Verify(flat, usedModel, ingredients, gen, page, parseVerdict)
                 else flat;
    if |final| == 0 then Mock(dish, ingredients, NoResults) else Results(final)
  }

  /** A 400 consults no service: the answer does not depend on any oracle. */
  lemma {:induction false} BadRequestCallsNothing(req: SearchRequest, env: Env, env': Env, gen: Generator, gen': Generator,
                               search: string -> SearchOutcome, search': string -> SearchOutcome,
                               page: string -> Option<string>, page': string -> Option<string>,
                               parsePlan: string -> PlanJson, parsePlan': string -> PlanJson,
                               parseVerdict: string -> Option<Verdict>,
                               parseVerdict': string -> Option<Verdict>)
    requires req.SearchBody? && MissingIngredients(req.ingredients)
    ensures HandleSearch(req, env, gen, search, page, parsePlan, parseVerdict)
            == HandleSearch(req, env', gen', search', page', parsePlan', parseVerdict')
            == BadRequest("Ingredients are required")
  {
  }

  /** The placeholder paths before any search: every plan model failed, or
      the plan did not parse, or the search credentials are missing. */
  lemma {:induction false} PlaceholderPaths(req: SearchRequest, env: Env, gen: Generator,
                         search: string -> SearchOutcome, page: string -> Option<string>,
                         parsePlan: string -> PlanJson, parseVerdict: string -> Option<Verdict>)
    requires req.SearchBody? && !MissingIngredients(req.ingredients)
    ensures var ingredients := req.ingredients.value;
            var plan := PlanStage(ingredients, req.dish, req.mode, gen);
            var r := HandleSearch(req, env, gen, search, page, parsePlan, parseVerdict);
            && (plan.outcome.Err? ==> r == Mock(req.dish, ingredients, AllModelsFailed))
            && (plan.outcome.Ok? && plan.outcome.value.value.text.Some? ==>
                  var parsed := parsePlan(StripFences(plan.outcome.value.value.text.value));
                  && (parsed.NotJson? ==> r == Mock(req.dish, ingredients, PlanParseFailed))
                  && (!parsed.NotJson? && !SearchConfigured(env) ==>
                        r == Mock(req.dish, ingredients, SearchKeysMissing)))
  {
  }

  /** Exceptions that reach the outer catch give the one-item error list:
      an unreadable body, a completion whose text cannot be read, a plan
      that is not a list. */
  lemma {:induction false} ExceptionPaths(req: SearchRequest, env: Env, gen: Generator,
                       search: string -> SearchOutcome, page: string -> Option<string>,
                       parsePlan: string -> PlanJson, parseVerdict: string -> Option<Verdict>)
    ensures var r := HandleSearch(req, env, gen, search, page, parsePlan, parseVerdict);
            && (req.Unreadable? ==> r == Results([ErrorItem]))
            && (req.SearchBody? && !MissingIngredients(req.ingredients) ==>
                  var plan := PlanStage(req.ingredients.value, req.dish, req.mode, gen);
                  && (plan.outcome.Ok? && plan.outcome.value.value.text.None? ==> r == Results([ErrorItem]))
                  && (plan.outcome.Ok? && plan.outcome.value.value.text.Some? && SearchConfigured(env)
                      && parsePlan(StripFences(plan.outcome.value.value.text.value)).NotAList? ==>
                        r == Results([ErrorItem])))
  {
  }

  /** A readable request with ingredients, a plan model that answered, a
      plan that is a list and configured search credentials reach the
      search stage with the model that produced the plan. */
  lemma {:induction false} ReachesSearchStage(req: SearchRequest, env: Env, gen: Generator,
                           search: string -> SearchOutcome, page: string -> Option<string>,
                           parsePlan: string -> PlanJson, parseVerdict: string -> Option<Verdict>)
    requires req.SearchBody? && !MissingIngredients(req.ingredients) && SearchConfigured(env)
    requires var plan := PlanStage(req.ingredients.value, req.dish, req.mode, gen);
             && plan.outcome.Ok? && plan.outcome.value.value.text.Some?
             && parsePlan(StripFences(plan.outcome.value.value.text.value)).PlanList?
    ensures var plan := PlanStage(req.ingredients.value, req.dish, req.mode, gen);
            var entries := parsePlan(StripFences(plan.outcome.value.value.text.value)).entries;
            HandleSearch(req, env, gen, search, page, parsePlan, parseVerdict)
            == SearchStage(entries, req.ingredients.value, req.dish, req.mode, plan.outcome.value.choice,
                           gen, search, page, parseVerdict)
  {
    var ing := req.ingredients.value;
    var plan := PlanStage(ing, req.dish, req.mode, gen);
    var parsed := parsePlan(StripFences(plan.outcome.value.value.text.value));
    assert HandleSearch(req, env, gen, search, page, parsePlan, parseVerdict)
           == PlanAndSearch(ing, req.dish, req.mode, env, gen, search, page, parsePlan, parseVerdict);
    assert !parsed.NotJson? && !parsed.NotAList?;
  }

  /** Fast mode, or an empty search result, returns the flattened results
      unanalysed, or the "No search results found" placeholders when there
      are none. */
  lemma {:induction false} FastModeReturnsFlattened(entries: seq<PlanEntry>, ingredients: seq<string>, dish: Option<string>,
                                 mode: Option<string>, usedModel: string, gen: Generator,
                                 search: string -> SearchOutcome, page: string -> Option<string>,
                                 parseVerdict: string -> Option<Verdict>)
    requires !IsDetailed(mode) || |Flatten(entries, search)| == 0
    ensures var flat := Flatten(entries, search);
            var r := SearchStage(entries, ingredients, dish, mode, usedModel, gen, search, page, parseVerdict);
            && (|flat| > 0 ==> r == Results(flat))
            && (|flat| == 0 ==> r == Mock(dish, ingredients, NoResults))
            && (forall x :: x in r.results ==> x.analyzed.None? && !x.analysisError)
  {
    FlattenProvenance(entries, search);
  }

  /** Detailed mode with a non-empty search result returns the verified
      leading results, at most three, or the placeholders when every slot
      was dropped. */
  lemma {:induction false} DetailedModeReturnsVerified(entries: seq<PlanEntry>, ingredients: seq<string>, dish: Option<string>,
                                    mode: Option<string>, usedModel: string, gen: Generator,
                                    search: string -> SearchOutcome, page: string -> Option<string>,
                                    parseVerdict: string -> Option<Verdict>)
    requires IsDetailed(mode) && |Flatten(entries, search)| > 0
    ensures var verified := Verify(Flatten(entries, search), usedModel, ingredients, gen, page, parseVerdict);
            var r := SearchStage(entries, ingredients, dish, mode, usedModel, gen, search, page, parseVerdict);
            && (|verified| > 0 ==> r == Results(verified) && |r.results| <= AnalysisLimit)
            && (|verified| == 0 ==> r == Mock(dish, ingredients, NoResults))
            && (forall x :: x in r.results ==> (x.analyzed.Some? <==> |verified| > 0))
  {
    var flat := Flatten(entries, search);
    var verified := Verify(flat, usedModel, ingredients, gen, page, parseVerdict);
    var r := SearchStage(entries, ingredients, dish, mode, usedModel, gen, search, page, parseVerdict);
    if |verified| > 0 {
      assert r == Results(verified);
    } else {
      assert r == Mock(dish, ingredients, NoResults);
      assert forall x :: x in MockItems(dish, ingredients, NoResults) ==> x.analyzed.None?;
    }
  }
}

=== FILE: sequences.dfy ===
/** Facts about sequences used by the key pool and the ingredient store. */
module Sequences {

  /** No element occurs twice. */
  predicate NoDuplicates<T(==)>(s: seq<T>) {
    forall i, j :: 0 <= i < j < |s| ==> s[i] != s[j]
  }

  /** The position of the first occurrence of `v` in `s`. */
  function FirstIndex<T(==)>(s: seq<T>, v: T): (i: nat)
    requires v in s
    ensures i < |s| && s[i] == v
    ensures forall k :: 0 <= k < i ==> s[k] != v
  {
    if s[0] == v then 0 else 1 + FirstIndex(s[1..], v)
  }

  /** `FirstIndex` is determined by its characteristic properties. */
  lemma FirstIndexUnique<T>(s: seq<T>, v: T, i: nat)
    requires i < |s| && s[i] == v
    requires forall k :: 0 <= k < i ==> s[k] != v
    ensures FirstIndex(s, v) == i
  {
  }
}

=== FILE: text.dfy ===
/** JavaScript string operations the core relies on: `String.prototype.trim`,
    the regular-expression class `\s`, and `replace(/literal/g, '')`.
    Strings are sequences of Unicode code points. */
module Text {

  /** The characters JavaScript's `\s` and `trim` treat as white space: the
      WhiteSpace and LineTerminator productions of ECMAScript. */
  predicate IsWhitespace(c: char) {
    || c == '\t' || c == '\n' || c == '\U{B}' || c == '\U{C}' || c == '\r' || c == ' '
    || c == '\U{A0}' || c == '\U{1680}' || ('\U{2000}' <= c <= '\U{200A}')
    || c == '\U{2028}' || c == '\U{2029}' || c == '\U{202F}' || c == '\U{205F}'
    || c == '\U{3000}' || c == '\U{FEFF}'
  }

  predicate AllWhitespace(s: string) {
    forall i :: 0 <= i < |s| ==> IsWhitespace(s[i])
  }

  /** Neither end of `s` is white space. */
  predicate IsTrimmed(s: string) {
    |s| == 0 || (!IsWhitespace(s[0]) && !IsWhitespace(s[|s| - 1]))
  }

  /** `s` with its leading white space removed. */
  function TrimStart(s: string): (r: string)
    ensures |r| <= |s| && r == s[|s| - |r|..]
    ensures AllWhitespace(s[..|s| - |r|])
    ensures |r| == 0 || !IsWhitespace(r[0])
  {
    if |s| > 0 && IsWhitespace(s[0]) then TrimStart(s[1..]) else s
  }

  /** `s` with its trailing white space removed. */
  function TrimEnd(s: string): (r: string)
    ensures |r| <= |s| && r == s[..|r|]
    ensures AllWhitespace(s[|r|..])
    ensures |r| == 0 || !IsWhitespace(r[|r| - 1])
  {
    if |s| > 0 && IsWhitespace(s[|s| - 1]) then TrimEnd(s[..|s| - 1]) else s
  }

  /** `String.prototype.trim`: the result is the slice of `s` left after
      removing white space, and only white space, from both ends. */
  function Trim(s: string): (r: string)
    ensures IsTrimmed(r)
    ensures exists i, j :: 0 <= i <= j <= |s| && r == s[i..j]
                           && AllWhitespace(s[..i]) && AllWhitespace(s[j..])
    ensures IsTrimmed(s) ==> r == s
  {
    var t := TrimStart(s);
    var r := TrimEnd(t);
    var i := |s| - |t|;
    assert r == s[i..i + |r|];
    assert s[i + |r|..] == t[|r|..];
    assert |r| > 0 ==> r[0] == t[0];
    assert IsTrimmed(s) ==> t == s && r == s;
    r
  }

  lemma TrimIdempotent(s: string)
    ensures Trim(Trim(s)) == Trim(s)
  {
  }

  /** The characters of `s` that are not white space, in order. */
  function Visible(s: string): (r: string)
    ensures forall i :: 0 <= i < |r| ==> !IsWhitespace(r[i])
    ensures |r| <= |s|
  {
    if |s| == 0 then ""
    else if IsWhitespace(s[0]) then Visible(s[1..])
    else [s[0]] + Visible(s[1..])
  }

  lemma {:induction false} VisibleConcat(a: string, b: string)
    ensures Visible(a + b) == Visible(a) + Visible(b)
    decreases |a|
  {
    if |a| > 0 {
      assert (a + b)[1..] == a[1..] + b;
      VisibleConcat(a[1..], b);
    } else {
      assert a + b == b;
    }
  }

  /** Trimming removes no visible character. */
  lemma TrimKeepsVisible(s: string)
    ensures Visible(Trim(s)) == Visible(s)
  {
    VisibleTrimStart(s);
    VisibleTrimEnd(TrimStart(s));
  }

  /** Dropping trailing white space does not change the visible characters. */
  lemma {:induction false} VisibleTrimEnd(s: string)
    ensures Visible(TrimEnd(s)) == Visible(s)
    decreases |s|
  {
    if |s| > 0 && IsWhitespace(s[|s| - 1]) {
      var init := s[..|s| - 1];
      assert s == init + [s[|s| - 1]];
      VisibleConcat(init, [s[|s| - 1]]);
      assert Visible([s[|s| - 1]]) == "" by { assert [s[|s| - 1]][1..] == ""; }
      VisibleTrimEnd(init);
    }
  }

  /** Trimming keeps the two spacing properties. */
  lemma TrimKeepsSpacing(s: string)
    requires WhitespaceIsSpace(s) && SingleSpaced(s)
    ensures WhitespaceIsSpace(Trim(s)) && SingleSpaced(Trim(s))
  {
    var i, j :| 0 <= i <= j <= |s| && Trim(s) == s[i..j];
    SliceKeepsSpacing(s, i, j);
  }

  /** Every white-space character of `s` is the plain space. */
  predicate WhitespaceIsSpace(s: string) {
    forall i :: 0 <= i < |s| && IsWhitespace(s[i]) ==> s[i] == ' '
  }

  /** No two adjacent characters of `s` are both white space. */
  ghost predicate SingleSpaced(s: string) {
    forall i, j :: 0 <= i < j < |s| && j == i + 1 ==> !(IsWhitespace(s[i]) && IsWhitespace(s[j]))
  }

  lemma VisibleOfWhitespace(s: string)
    requires AllWhitespace(s)
    ensures Visible(s) == ""
  {
    if |s| > 0 {
      VisibleOfWhitespace(s[1..]);
    }
  }

  /** Dropping leading white space does not change the visible characters. */
  lemma VisibleTrimStart(s: string)
    ensures Visible(TrimStart(s)) == Visible(s)
  {
    if |s| > 0 && IsWhitespace(s[0]) {
      VisibleTrimStart(s[1..]);
    }
  }

  /** `s.replace(/\s+/g, ' ')`: every maximal run of white space becomes one
      space. The visible characters are untouched, no run of white space is
      left, and the result begins with white space exactly when `s` does
      (`CollapseKeepsEnd` states the same of the last character). */
  function CollapseWhitespace(s: string): (r: string)
    decreases |s|
    ensures |r| == 0 <==> |s| == 0
    ensures |s| > 0 ==> (IsWhitespace(r[0]) <==> IsWhitespace(s[0]))
    ensures WhitespaceIsSpace(r)
    ensures SingleSpaced(r)
    ensures Visible(r) == Visible(s)
  {
    if |s| == 0 then ""
    else if IsWhitespace(s[0]) then
      var rest := TrimStart(s[1..]);
      VisibleTrimStart(s[1..]);
      var t := CollapseWhitespace(rest);
      ConsKeepsSpacing(' ', t);
      " " + t
    else
      var t := CollapseWhitespace(s[1..]);
      ConsKeepsSpacing(s[0], t);
      [s[0]] + t
  }

  /** White space in front of a visible character, or of nothing, is
      dropped entirely. */
  lemma {:induction false} TrimStartWhitespacePrefix(w: string, b: string)
    requires AllWhitespace(w) && (|b| == 0 || !IsWhitespace(b[0]))
    ensures TrimStart(w + b) == b
    decreases |w|
  {
    if |w| == 0 {
      assert w + b == b;
    } else {
      assert (w + b)[1..] == w[1..] + b;
      TrimStartWhitespacePrefix(w[1..], b);
    }
  }

  /** Leading white space of text ending in a visible character stops
      inside that text. */
  lemma {:induction false} TrimStartConcat(a: string, y: string)
    requires |a| > 0 && !IsWhitespace(a[|a| - 1])
    ensures TrimStart(a + y) == TrimStart(a) + y
    decreases |a|
  {
    assert (a + y)[0] == a[0];
    if IsWhitespace(a[0]) {
      assert (a + y)[1..] == a[1..] + y;
      TrimStartConcat(a[1..], y);
    }
  }

  /** Trimming the front of text that ends in a visible character leaves
      that character in place. */
  lemma {:induction false} TrimStartKeepsVisibleEnd(s: string)
    requires |s| > 0 && !IsWhitespace(s[|s| - 1])
    ensures |TrimStart(s)| > 0 && TrimStart(s)[|TrimStart(s)| - 1] == s[|s| - 1]
    decreases |s|
  {
    if IsWhitespace(s[0]) {
      assert s[1..][|s| - 2] == s[|s| - 1];
      TrimStartKeepsVisibleEnd(s[1..]);
    }
  }

  /** After a leading white-space character, trimming the rest leaves the
      last character of `s` in place, or nothing when that character is
      white space too. */
  lemma TrimStartAfterRun(s: string)
    requires |s| > 0 && IsWhitespace(s[0])
    ensures var rest := TrimStart(s[1..]);
            && (|rest| > 0 ==> rest[|rest| - 1] == s[|s| - 1])
            && (|rest| == 0 ==> IsWhitespace(s[|s| - 1]))
  {
    if |s| > 1 {
      var rest := TrimStart(s[1..]);
      assert s[1..][|s| - 2] == s[|s| - 1];
      if !IsWhitespace(s[|s| - 1]) {
        TrimStartKeepsVisibleEnd(s[1..]);
      } else if |rest| > 0 {
        assert rest[|rest| - 1] == s[1..][|s| - 2];
      }
    }
  }

  /** No white-space run spans the end of text ending in a visible
      character, so the two parts collapse separately. */
  lemma {:induction false} CollapseConcat(a: string, y: string)
    requires |a| > 0 && !IsWhitespace(a[|a| - 1])
    ensures CollapseWhitespace(a + y) == CollapseWhitespace(a) + CollapseWhitespace(y)
    decreases |a|
  {
    var s := a + y;
    assert s[0] == a[0];
    if IsWhitespace(a[0]) {
      assert s[1..] == a[1..] + y;
      assert a[1..][|a| - 2] == a[|a| - 1];
      TrimStartConcat(a[1..], y);
      TrimStartKeepsVisibleEnd(a[1..]);
      var ta := TrimStart(a[1..]);
      CollapseConcat(ta, y);
      CollapseWhitespaceHead(s);
      CollapseWhitespaceHead(a);
      Regroup(" ", CollapseWhitespace(ta), CollapseWhitespace(y));
    } else {
      CollapseVisibleHead(s);
      CollapseVisibleHead(a);
      if |a| == 1 {
        assert s[1..] == y;
        assert a[1..] == "" && CollapseWhitespace(a[1..]) == "";
        assert [a[0]] + CollapseWhitespace(a[1..]) == [a[0]];
      } else {
        assert s[1..] == a[1..] + y;
        CollapseConcat(a[1..], y);
        Regroup([a[0]], CollapseWhitespace(a[1..]), CollapseWhitespace(y));
      }
    }
  }

  /** The collapsed text ends with white space exactly when `s` does. */
  lemma {:induction false} CollapseKeepsEnd(s: string)
    requires |s| > 0
    ensures var r := CollapseWhitespace(s);
            |r| > 0 && (IsWhitespace(r[|r| - 1]) <==> IsWhitespace(s[|s| - 1]))
    decreases |s|
  {
    if IsWhitespace(s[0]) {
      CollapseWhitespaceHead(s);
      TrimStartAfterRun(s);
      var rest := TrimStart(s[1..]);
      var t := CollapseWhitespace(rest);
      if |rest| > 0 {
        CollapseKeepsEnd(rest);
        assert (" " + t)[|t|] == t[|t| - 1];
      } else {
        assert t == "";
      }
    } else {
      CollapseVisibleHead(s);
      var t := CollapseWhitespace(s[1..]);
      if |s| > 1 {
        assert s[1..][|s| - 2] == s[|s| - 1];
        CollapseKeepsEnd(s[1..]);
        assert ([s[0]] + t)[|t|] == t[|t| - 1];
      } else {
        assert t == "";
      }
    }
  }

  /** One step of `CollapseWhitespace` on a visible head. */
  lemma CollapseVisibleHead(s: string)
    requires |s| > 0 && !IsWhitespace(s[0])
    ensures CollapseWhitespace(s) == [s[0]] + CollapseWhitespace(s[1..])
  {
  }

  /** One step of `CollapseWhitespace` on a white-space head. */
  lemma CollapseWhitespaceHead(s: string)
    requires |s| > 0 && IsWhitespace(s[0])
    ensures CollapseWhitespace(s) == " " + CollapseWhitespace(TrimStart(s[1..]))
  {
  }

  /** A leading white-space run becomes one space. */
  lemma CollapseLeadingRun(w: string, b: string)
    requires |w| > 0 && AllWhitespace(w)
    requires |b| == 0 || !IsWhitespace(b[0])
    ensures CollapseWhitespace(w + b) == " " + CollapseWhitespace(b)
  {
    assert (w + b)[1..] == w[1..] + b;
    TrimStartWhitespacePrefix(w[1..], b);
    CollapseWhitespaceHead(w + b);
  }

  // Two plain sequence steps. They are separate lemmas, not inline
  // asserts, because next to `CollapseWhitespace` terms the inline form
  // exhausts the solver.
  lemma EmptyPrefix(x: string, y: string)
    requires |x| == 0
    ensures x + y == y
  {
  }

  lemma Regroup(x: string, y: string, z: string)
    ensures x + (y + z) == x + y + z
  {
  }

  /** A white-space run between visible characters, or at either end,
      becomes exactly one space and nothing else changes around it. */
  lemma CollapseAroundRun(a: string, w: string, b: string)
    requires |a| == 0 || !IsWhitespace(a[|a| - 1])
    requires |w| > 0 && AllWhitespace(w)
    requires |b| == 0 || !IsWhitespace(b[0])
    ensures CollapseWhitespace(a + w + b) == CollapseWhitespace(a) + " " + CollapseWhitespace(b)
  {
    CollapseLeadingRun(w, b);
    if |a| == 0 {
      Regroup(a, w, b);
      EmptyPrefix(a, w + b);
      assert CollapseWhitespace(a) == "";
      EmptyPrefix(CollapseWhitespace(a), " ");
    } else {
      CollapseConcat(a, w + b);
      Regroup(a, w, b);
      Regroup(CollapseWhitespace(a), " ", CollapseWhitespace(b));
    }
  }

  /** Putting one character in front of well-spaced text: the spacing
      properties survive when a white-space head is a space followed by
      visible text, and the head counts as visible exactly when it is. */
  lemma ConsKeepsSpacing(c: char, t: string)
    requires WhitespaceIsSpace(t) && SingleSpaced(t)
    requires IsWhitespace(c) ==> c == ' ' && (|t| == 0 || !IsWhitespace(t[0]))
    ensures WhitespaceIsSpace([c] + t) && SingleSpaced([c] + t)
    ensures Visible([c] + t) == if IsWhitespace(c) then Visible(t) else [c] + Visible(t)
  {
    var r := [c] + t;
    assert r[1..] == t;
    forall a, b | 0 <= a < b < |r| && b == a + 1
      ensures !(IsWhitespace(r[a]) && IsWhitespace(r[b]))
    {
      if a > 0 {
        assert r[a] == t[a - 1] && r[b] == t[b - 1];
      }
    }
  }

  /** Slices keep the two spacing properties. */
  lemma SliceKeepsSpacing(s: string, i: nat, j: nat)
    requires i <= j <= |s|
    requires WhitespaceIsSpace(s) && SingleSpaced(s)
    ensures WhitespaceIsSpace(s[i..j]) && SingleSpaced(s[i..j])
  {
    var t := s[i..j];
    forall a, b | 0 <= a < b < |t| && b == a + 1
      ensures !(IsWhitespace(t[a]) && IsWhitespace(t[b]))
    {
      assert t[a] == s[i + a] && t[b] == s[i + a + 1];
    }
  }

  // ---------------------------------------------------------------------
  // Code-fence stripping
  // ---------------------------------------------------------------------

  const Fence: string := "```"
  const JsonFence: string := "```json"

  /** `p` occurs in `s` starting at position `i`. */
  predicate OccursAt(s: string, p: string, i: int) {
    0 <= i && i + |p| <= |s| && s[i..i + |p|] == p
  }

  /** `p` occurs nowhere in `s`. */
  ghost predicate Absent(s: string, p: string) {
    forall i :: !OccursAt(s, p, i)
  }

  /** `s.replace(/p/g, '')` for a literal pattern `p`: occurrences are found
      left to right without overlapping and each is deleted. */
  function RemoveAll(s: string, p: string): (r: string)
    requires |p| > 0
    decreases |s|
    ensures |r| <= |s|
  {
    if |s| < |p| then s
    else if s[..|p|] == p then RemoveAll(s[|p|..], p)
    else [s[0]] + RemoveAll(s[1..], p)
  }

  /** `text.replace(/```json/g, '').replace(/```/g, '').trim()`, which both
      routes apply to model output before parsing it as JSON. */
  function StripFences(s: string): (r: string)
    ensures Absent(r, Fence)
    ensures IsTrimmed(r)
  {
    var r := Trim(RemoveAll(RemoveAll(s, JsonFence), Fence));
    RemoveAllFenceLeavesNone(RemoveAll(s, JsonFence));
    AbsentInSlices(RemoveAll(RemoveAll(s, JsonFence), Fence), Fence);
    r
  }

  /** Removing a pattern from text without occurrences changes nothing. */
  lemma {:induction false} RemoveAllAbsent(s: string, p: string)
    requires |p| > 0 && Absent(s, p)
    ensures RemoveAll(s, p) == s
    decreases |s|
  {
    if |s| >= |p| {
      assert !OccursAt(s, p, 0);
      assert s[0..|p|] == s[..|p|];
      AbsentInSlices(s, p);
      assert s[1..|s|] == s[1..];
      RemoveAllAbsent(s[1..], p);
      assert s == [s[0]] + s[1..];
    }
  }

  /** A result of `RemoveAll` starts with the character its argument starts
      with, when that character cannot begin the pattern. */
  lemma RemoveAllKeepsHead(s: string, p: string)
    requires |p| > 0 && |s| > 0 && s[0] != p[0]
    ensures |RemoveAll(s, p)| > 0 && RemoveAll(s, p)[0] == s[0]
  {
    if |s| >= |p| {
      assert s[..|p|][0] != p[0];
    }
  }

  /** Deleting every triple backtick cannot join two partial fences into a
      new one: the pattern is made of one repeated character and occurrences
      are removed at the earliest position. */
  lemma {:induction false} RemoveAllFenceLeavesNone(s: string)
    ensures Absent(RemoveAll(s, Fence), Fence)
    decreases |s|
  {
    var r := RemoveAll(s, Fence);
    if |s| < 3 {
    } else if s[..3] == Fence {
      RemoveAllFenceLeavesNone(s[3..]);
    } else {
      var rest := RemoveAll(s[1..], Fence);
      RemoveAllFenceLeavesNone(s[1..]);
      assert r == [s[0]] + rest;
      forall i | 0 <= i && i + 3 <= |r|
        ensures !OccursAt(r, Fence, i)
      {
        if i > 0 {
          assert r[i..i + 3] == rest[i - 1..i + 2];
          assert !OccursAt(rest, Fence, i - 1);
        } else if s[0] == '`' {
          if s[1] != '`' {
            RemoveAllKeepsHead(s[1..], Fence);
            assert r[1] == s[1];
            assert r[..3][1] != Fence[1];
          } else {
            assert s[..3][2] != Fence[2];
            var t := s[1..];
            if |t| >= 3 {
              assert t[..3] != Fence by { assert t[..3][1] == s[2]; }
            }
            assert rest == [t[0]] + RemoveAll(t[1..], Fence);
            RemoveAllKeepsHead(t[1..], Fence);
            assert r[2] == s[2];
            assert r[..3][2] != Fence[2];
          }
        } else {
          assert r[..3][0] != Fence[0];
        }
      }
    }
  }

  lemma SliceOfSlice(s: string, i: nat, j: nat, k: nat, n: nat)
    requires i <= j <= |s| && k + n <= j - i
    ensures s[i..j][k..k + n] == s[i + k..i + k + n]
  {
    var x, y := s[i..j][k..k + n], s[i + k..i + k + n];
    assert forall m :: 0 <= m < n ==> x[m] == y[m];
  }

  /** A slice of text without `p` is still without `p`. */
  lemma AbsentInSlices(s: string, p: string)
    requires Absent(s, p)
    ensures forall i, j :: 0 <= i <= j <= |s| ==> Absent(s[i..j], p)
  {
    forall i, j, k | 0 <= i <= j <= |s|
      ensures !OccursAt(s[i..j], p, k)
    {
      if 0 <= k && k + |p| <= j - i {
        SliceOfSlice(s, i, j, k, |p|);
        assert !OccursAt(s, p, i + k);
      }
    }
  }

  /** Text without a triple backtick has no "```json" either. */
  lemma FenceFreeHasNoJsonFence(s: string)
    requires Absent(s, Fence)
    ensures Absent(s, JsonFence)
  {
    assert JsonFence[..3] == Fence;
    forall i
      ensures !OccursAt(s, JsonFence, i)
    {
      if 0 <= i && i + |JsonFence| <= |s| {
        assert s[i..i + 3] == s[i..i + |JsonFence|][..3];
        assert !OccursAt(s, Fence, i);
      }
    }
  }

  /** Stripping twice is stripping once. */
  lemma {:induction false} StripFencesIdempotent(s: string)
    ensures StripFences(StripFences(s)) == StripFences(s)
  {
    var x := StripFences(s);
    FenceFreeHasNoJsonFence(x);
    RemoveAllAbsent(x, JsonFence);
    RemoveAllAbsent(x, Fence);
  }

  /** Text without backticks passes through `RemoveAll` untouched when the
      pattern starts with a backtick. */
  lemma {:induction false} RemoveAllPassesPlainText(a: string, t: string, p: string)
    requires |p| > 0 && p[0] == '`'
    requires forall i :: 0 <= i < |a| ==> a[i] != '`'
    ensures RemoveAll(a + t, p) == a + RemoveAll(t, p)
    decreases |a|
  {
    if |a| > 0 {
      var s := a + t;
      if |s| >= |p| {
        assert s[..|p|][0] == a[0];
        assert s[1..] == a[1..] + t;
        assert s[..|p|] != p by { assert s[..|p|][0] != p[0]; }
        RemoveAllPassesPlainText(a[1..], t, p);
        assert a + RemoveAll(t, p) == [a[0]] + (a[1..] + RemoveAll(t, p));
      } else {
        assert |t| < |p|;
      }
    } else {
      assert a + t == t;
    }
  }

  /** Each occurrence of a backtick-led pattern after backtick-free text is
      deleted, and the text before it is kept as it is. */
  lemma RemoveAllDropsOccurrence(a: string, t: string, p: string)
    requires |p| > 0 && p[0] == '`'
    requires forall i :: 0 <= i < |a| ==> a[i] != '`'
    ensures RemoveAll(a + p + t, p) == a + RemoveAll(t, p)
  {
    assert a + p + t == a + (p + t);
    RemoveAllPassesPlainText(a, p + t, p);
    assert (p + t)[..|p|] == p && (p + t)[|p|..] == t;
  }

  /** The characters of `s` other than backticks, in order. */
  function NonBackticks(s: string): (r: string)
    ensures |r| <= |s|
    ensures forall i :: 0 <= i < |r| ==> r[i] != '`'
  {
    if |s| == 0 then ""
    else if s[0] == '`' then NonBackticks(s[1..])
    else [s[0]] + NonBackticks(s[1..])
  }

  /** Deleting every triple backtick deletes backticks only: every other
      character survives, in order. */
  lemma {:induction false} RemoveFenceKeepsText(s: string)
    ensures NonBackticks(RemoveAll(s, Fence)) == NonBackticks(s)
    decreases |s|
  {
    if |s| >= 3 {
      if s[..3] == Fence {
        assert s[0] == '`' && s[1] == '`' && s[2] == '`' by { assert s[..3][0] == s[0] && s[..3][1] == s[1] && s[..3][2] == s[2]; }
        assert s[1..][1..] == s[2..] && s[2..][1..] == s[3..];
        assert s[1..][0] == '`' && s[2..][0] == '`';
        assert NonBackticks(s) == NonBackticks(s[1..]) == NonBackticks(s[2..]) == NonBackticks(s[3..]);
        RemoveFenceKeepsText(s[3..]);
      } else {
        RemoveFenceKeepsText(s[1..]);
        var r := RemoveAll(s, Fence);
        assert r == [s[0]] + RemoveAll(s[1..], Fence);
        assert r[0] == s[0] && r[1..] == RemoveAll(s[1..], Fence);
      }
    }
  }

  /** Fenced model output parses like the bare JSON: wrapping backtick-free
      text in "```json" ... "```" does not change what `StripFences` yields. */
  lemma {:induction false} StripFencesRemovesWrapper(j: string)
    requires forall i :: 0 <= i < |j| ==> j[i] != '`'
    ensures StripFences(JsonFence + j + Fence) == StripFences(j) == Trim(j)
  {
    var s := JsonFence + j + Fence;
    assert s[..|JsonFence|] == JsonFence;
    assert s[|JsonFence|..] == j + Fence;
    RemoveAllPassesPlainText(j, Fence, JsonFence);
    assert RemoveAll(s, JsonFence) == j + Fence;
    RemoveAllPassesPlainText(j, Fence, Fence);
    assert Fence[..3] == Fence;
    assert RemoveAll(Fence, Fence) == "";
    assert RemoveAll(j + Fence, Fence) == j;
    RemoveAllPassesPlainText(j, "", JsonFence);
    RemoveAllPassesPlainText(j, "", Fence);
    assert j + "" == j;
  }

  /** A trailing fence never completes a "```json": deleting every "```json"
      from `x + Fence` deletes the ones in `x` and leaves the fence. */
  lemma {:induction false} RemoveJsonFenceBeforeFence(x: string)
    ensures RemoveAll(x + Fence, JsonFence) == RemoveAll(x, JsonFence) + Fence
    decreases |x|
  {
    var s := x + Fence;
    if |x| < 4 {
      assert |s| < |JsonFence|;
    } else if |x| < 7 {
      assert s[..7] != JsonFence by { assert s[..7][6] == s[6] == '`'; }
      assert s[1..] == x[1..] + Fence;
      RemoveJsonFenceBeforeFence(x[1..]);
      assert RemoveAll(x[1..], JsonFence) == x[1..];
      assert [x[0]] + x[1..] == x;
    } else if x[..7] == JsonFence {
      assert s[..7] == x[..7];
      assert s[7..] == x[7..] + Fence;
      RemoveJsonFenceBeforeFence(x[7..]);
    } else {
      assert s[..7] == x[..7];
      assert s[1..] == x[1..] + Fence;
      RemoveJsonFenceBeforeFence(x[1..]);
      assert [x[0]] + (RemoveAll(x[1..], JsonFence) + Fence) == [x[0]] + RemoveAll(x[1..], JsonFence) + Fence;
    }
  }

  /** A trailing fence is itself deleted, whatever backticks precede it:
      `RemoveAll(y + Fence, Fence)` is `RemoveAll(y, Fence)`. */
  lemma {:induction false} RemoveFenceAbsorbsFence(y: string)
    ensures RemoveAll(y + Fence, Fence) == RemoveAll(y, Fence)
    decreases |y|
  {
    var s := y + Fence;
    if |y| == 0 {
      assert s == Fence && s[..3] == Fence && s[3..] == "";
    } else if |y| >= 3 {
      assert s[..3] == y[..3];
      if y[..3] == Fence {
        assert s[3..] == y[3..] + Fence;
        RemoveFenceAbsorbsFence(y[3..]);
      } else {
        assert s[1..] == y[1..] + Fence;
        RemoveFenceAbsorbsFence(y[1..]);
      }
    } else if forall i :: 0 <= i < |y| ==> y[i] == '`' {
      assert s[..3] == Fence;
      assert s[3..] == y;
    } else {
      assert s[..3] != Fence by {
        var i :| 0 <= i < |y| && y[i] != '`';
        assert s[..3][i] == y[i];
      }
      assert s[1..] == y[1..] + Fence;
      RemoveFenceAbsorbsFence(y[1..]);
    }
  }

  /** Fenced model output parses like the bare text, whatever the text:
      wrapping `j` in "```json" ... "```" does not change what
      `StripFences` yields. */
  lemma StripFencesUnwraps(j: string)
    ensures StripFences(JsonFence + j + Fence) == StripFences(j)
  {
    var s := JsonFence + j + Fence;
    assert s[..|JsonFence|] == JsonFence;
    assert s[|JsonFence|..] == j + Fence;
    RemoveJsonFenceBeforeFence(j);
    RemoveFenceAbsorbsFence(RemoveAll(j, JsonFence));
  }
}
